=== FILE: README.md ===
# Courtroom simulation core, modelled in Dafny

This project models the core of a courtroom-training web application:

- the **scenario catalogue** (`src/data/simulationData.ts`): three trial
  scenarios (cross-examination, opening statement, jury selection). Each
  is a list of stages. Each stage is a list of interactions: prompts,
  rated choices and feedback beats.
- the **simulation engine** (`src/components/simulation/SimulationEngine.tsx`):
  - a cursor (stage index, interaction index) that advances through the
    script;
  - the history of answers;
  - the completion and results flags;
  - the progress percentage, the score and the performance tier;
  - what the page offers: the option buttons, the primary button with its
    label, and the feedback and results panels.
- the **case file list** of the case manager page (`src/pages/CaseManager.tsx`):
  delete by id and mark analysed by id.
- the **upload list** (`src/components/CaseUpload.tsx`): a dropped or chosen
  batch is appended as `uploading` and later marked `complete`. A drag
  state machine lights the drop zone.

## Modules

| file | module | contents |
|---|---|---|
| `wrappers.dfy` | `Wrappers` | `Option`, and the regrouping of concatenated sequences |
| `simulation_data.dfy` | `SimulationData` | the catalogue's types, well-formedness, the script of a scenario (its stages' interactions in order), cursor positions, lookup by id |
| `catalogue.dfy` | `Catalogue` | the three scenarios as constants, and the proof that each is well formed |
| `simulation_engine.dfy` | `SimulationEngine` | the engine state and its handlers; score, tier and progress; the page's actions as written (`Apply`, `Run`) and as evidently intended (`ApplyFixed`, `RunFixed`) |
| `engine_runs.dfy` | `EngineRuns` | a walk that answers every choice with the option of one rating, and what it reaches under both wirings |
| `catalogue_runs.dfy` | `CatalogueRuns` | the walks on the three catalogue scenarios |
| `case_manager.dfy` | `CaseManager` | the case file list |
| `case_upload.dfy` | `CaseUpload` | the upload list and the drop zone |

Modelling choices:

- A user's session on the simulation page is a sequence of `Action`s:
  - pick the k-th option;
  - press the primary button;
  - press "Restart Simulation".
- `Apply` performs one action as the page wires it. `Run` folds a
  sequence of actions.
- The score is `Math.round(points / (3 n) * 100)`. It is modelled exactly
  as `(200 points + 3 n) div (6 n)`, which is round-half-up of the rational
  value.
- Progress is `Math.floor(completed / total * 100)`, modelled as
  `(100 completed) div total`. A scenario without interactions gives
  `None`, standing for the source's `NaN`.
- The tiers follow the code: 80 and above is Expert, 60 and above is
  Proficient, anything lower is Developing.

## Model

| member | source | states |
|---|---|---|
| SimulationData.Find | src/components/simulation/SimulationEngine.tsx:24 | the lookup returns the first scenario carrying the route id; it returns None exactly when no scenario carries it |
| SimulationData.FindUnique | src/components/simulation/SimulationEngine.tsx:24 | when scenario ids are distinct, looking up a scenario's own id returns that very scenario |
| SimulationData.WellFormedIsWalkable | src/data/simulationData.ts:4-43 | a well-formed scenario has a first stage, and no stage is empty, so every cursor the engine builds addresses an interaction |
| SimulationData.ScriptAt | src/components/simulation/SimulationEngine.tsx:61-62 | the interaction at cursor (s, i) is the script entry at the cursor's position: walking stage by stage is the same as walking the flattened script |
| SimulationData.PositionInjective | src/components/simulation/SimulationEngine.tsx:51-55 | two different cursors into non-empty stages never have the same completed-count, so the progress count identifies the interaction |
| Catalogue.CrossExaminationWellFormed | src/data/simulationData.ts:46-266 | cross-examination has distinct stage and interaction ids and only its last stage has an outcome; every choice has three options, one of each rating; its script does not end on a choice |
| Catalogue.OpeningStatementWellFormed | src/data/simulationData.ts:267-422 | the same facts for opening-statement (distinct ids, the outcome on the last stage only, three options of distinct ratings at every choice); its script is not empty and its last interaction is a feedback beat, so it does not end on a choice |
| Catalogue.JurySelectionWellFormed | src/data/simulationData.ts:423-589 | the same facts for jury-selection (distinct ids, the outcome on the last stage only, three options of distinct ratings at every choice), except that its script ends on a choice (`challenge-choice`) |
| Catalogue.CatalogueWellFormed | src/data/simulationData.ts:45-591 | every catalogue scenario is well formed, and each of its choices has three options, one of each rating; a scenario's script ends on a choice exactly when it is jury-selection |
| Catalogue.CatalogueContents | src/data/simulationData.ts:45-591 | the catalogue holds three scenarios in source order: cross-examination (medium), opening-statement (easy), jury-selection (hard) |
| Catalogue.CatalogueLookup | src/components/simulation/SimulationEngine.tsx:24 | the three scenario ids are distinct; each id finds its own scenario; any other id finds nothing |
| Catalogue.CrossPreparationFacts | src/data/simulationData.ts:63-100 | stage `stage-1` holds `intro-1`, `prep-choice-1` in that order; it is well formed, its choice offers three ratings, and it has no outcome |
| Catalogue.CrossInitialQuestioningFacts | src/data/simulationData.ts:102-146 | stage `stage-2` holds `witness-intro`, `q1-choice`, `witness-response-1` and has no outcome |
| Catalogue.CrossCoreExaminationFacts | src/data/simulationData.ts:148-210 | stage `stage-3` holds `q2-choice`, `witness-response-2`, `q3-choice` and has no outcome |
| Catalogue.CrossClosingFacts | src/data/simulationData.ts:212-264 | stage `stage-4` holds `witness-response-3`, `q4-choice`, `witness-final`, `closing` and carries the outcome |
| Catalogue.OpeningPreparationFacts | src/data/simulationData.ts:284-321 | stage `prep-stage` holds `prep-intro`, `prep-choice` and has no outcome |
| Catalogue.OpeningStatementDeliveryFacts | src/data/simulationData.ts:323-378 | stage `delivery-stage` holds `intro-choice`, `evidence-choice` and has no outcome |
| Catalogue.OpeningConclusionFacts | src/data/simulationData.ts:380-420 | stage `conclusion-stage` holds `closing-choice`, `feedback` and carries the outcome |
| Catalogue.JuryPreparationFacts | src/data/simulationData.ts:440-477 | stage `js-prep` holds `js-prep-intro`, `js-prep-choice` and has no outcome |
| Catalogue.JuryVoirDireQuestioningFacts | src/data/simulationData.ts:479-548 | stage `voir-dire` holds `juror-intro-1`, `voir-dire-q1`, `juror-intro-2`, `voir-dire-q2` and has no outcome |
| Catalogue.JuryJurorChallengesFacts | src/data/simulationData.ts:550-588 | stage `challenges` holds `challenge-intro`, `challenge-choice` and carries the outcome |
| SimulationEngine.CurrentIsScriptAt | src/components/simulation/SimulationEngine.tsx:61-62 | under a valid cursor, the current interaction is the script entry at the completed-count, and that count is below the total |
| SimulationEngine.Advance | src/components/simulation/SimulationEngine.tsx:90-106 | advancing never touches the answers or the results flag; completion is never undone; on completing, the cursor stays where it was |
| SimulationEngine.AdvanceWalksScript | src/components/simulation/SimulationEngine.tsx:90-106 | on a walkable scenario, an advance moves the completed-count up by exactly one, unless the cursor is on the script's last interaction; only there does it set completion, leaving the cursor in place |
| SimulationEngine.SelectOption | src/components/simulation/SimulationEngine.tsx:64-88 | choosing an option appends one record (the current interaction's id, the option's id, the option's rating) and then advances; with no current interaction nothing happens |
| SimulationEngine.Next | src/components/simulation/SimulationEngine.tsx:121-125 | the next handler never records an answer; on a choice it does nothing |
| SimulationEngine.CompleteSimulation | src/components/simulation/SimulationEngine.tsx:137-139 | completing opens the results view |
| SimulationEngine.Restart | src/components/simulation/SimulationEngine.tsx:254-260 | a restart clears the answers, the completion flag and the results flag |
| SimulationEngine.RestartStartsOver | src/components/simulation/SimulationEngine.tsx:254-260 | a restart gives back the mount state: coherent, at script position 0, progress 0, score 0 |
| SimulationEngine.PointsByRating | src/components/simulation/SimulationEngine.tsx:111-115 | the points are three per good answer plus one per neutral answer, so at most three per answer |
| SimulationEngine.Score | src/components/simulation/SimulationEngine.tsx:108-119 | the score is a percentage between 0 and 100 |
| SimulationEngine.ScoreRounds | src/components/simulation/SimulationEngine.tsx:117-118 | the score is within one half of 100 × points / (3 × answers), with halves rounding up |
| SimulationEngine.ScoreExtremes | src/components/simulation/SimulationEngine.tsx:108-119 | all-good answers score 100; all-bad answers score 0 |
| SimulationEngine.ScoreMonotone | src/components/simulation/SimulationEngine.tsx:108-119 | with the same number of answers, more points never give a lower score |
| SimulationEngine.TierOf | src/components/simulation/SimulationEngine.tsx:212-239 | Expert exactly from 80, Proficient exactly from 60 below 80, Developing exactly below 60 |
| SimulationEngine.Progress | src/components/simulation/SimulationEngine.tsx:45-59 | no value exactly when the scenario has no interactions; otherwise the largest percentage p with p × total ≤ 100 × completed |
| SimulationEngine.CompletedInteractions | src/components/simulation/SimulationEngine.tsx:51-55 | the effect's loop computes the cursor's position in the script |
| SimulationEngine.CountInteractions | src/components/simulation/SimulationEngine.tsx:48-49 | the reduce over the stages computes the length of the script |
| SimulationEngine.ProgressBounds | src/components/simulation/SimulationEngine.tsx:45-59 | under a valid cursor, progress is defined and below 100; an advance never lowers it |
| SimulationEngine.PanelsBoundScore | src/components/simulation/SimulationEngine.tsx:359-375 | on a feedback beat outside the results view, with some answer recorded, a missing strengths panel means a score of at most 33; a missing improvements panel means at least 33 |
| SimulationEngine.ResultsView | src/components/simulation/SimulationEngine.tsx:161-249 | the results show the history's score and that score's tier; the strengths list shows min(3, good answers) rated entries, so it shows its placeholder line ("No notable strengths identified") exactly when there is no good answer; the same holds for the improvements list with bad answers and "No major issues identified" |
| SimulationEngine.ResultsOutcome | src/components/simulation/SimulationEngine.tsx:244-248 | once the results are shown on a well-formed scenario, the outcome panel shows the final stage's outcome, which is always present; a cursor on an earlier stage would show no outcome |
| SimulationEngine.ApplyKeepsCoherent | src/components/simulation/SimulationEngine.tsx:64-139 | every user action keeps the cursor valid, completion at the script's end and results after completion; it only extends the history, by at most one answer, except on restart |
| SimulationEngine.RunKeepsCoherent | src/components/simulation/SimulationEngine.tsx:64-139 | any sequence of user actions keeps the state coherent |
| SimulationEngine.ButtonLabel | src/components/simulation/SimulationEngine.tsx:127-135 | the four labels partition the states: "View Results" exactly when complete; "Select an option" exactly when incomplete on a choice; "Complete Simulation" exactly when incomplete, not on a choice and on the script's last interaction; "Continue" in every other case |
| SimulationEngine.PressEnabled | src/components/simulation/SimulationEngine.tsx:386 | the button is enabled exactly when its label is not "Select an option" and it is not a "View Results" button over a choice |
| SimulationEngine.Offered | src/components/simulation/SimulationEngine.tsx:338-353 | whenever an option button is offered, the primary button is disabled and the results are not shown |
| SimulationEngine.Panels | src/components/simulation/SimulationEngine.tsx:355-375 | the strengths panel appears exactly when the results view (which replaces the card, line 142) is shut, the current interaction is a feedback beat and some recorded answer is good; the improvements panel appears under the same conditions with some answer bad. Either panel implies at least one recorded answer |
| SimulationEngine.RatedExists | src/components/simulation/SimulationEngine.tsx:359-368 | the count of answers with a rating is positive exactly when some answer has that rating, which is the `filter(...).length > 0` test of each panel |
| SimulationEngine.Apply | src/components/simulation/SimulationEngine.tsx:338-391 | on the results view only "Restart Simulation" acts, and it returns to the mount state; elsewhere a restart does nothing; as written, a press on a completed run resting on a choice does nothing |
| SimulationEngine.ResultsHold | src/components/simulation/SimulationEngine.tsx:381-391 | as written, a sequence of actions without a restart leaves the results view exactly as it is |
| SimulationEngine.FixedPressCompletes | src/components/simulation/SimulationEngine.tsx:385-387 | as intended, a completed run opens the results on the next press, wherever the cursor rests, and ignores picks and restarts; the results view only leaves on a restart, to the mount state |
| SimulationEngine.ResultsHoldFixed | src/components/simulation/SimulationEngine.tsx:385-387 | under the intended wiring too, a sequence of actions without a restart leaves the results view as it is |
| SimulationEngine.LabelPredictsPress | src/components/simulation/SimulationEngine.tsx:127-135 | each button label predicts what a press does. "Select an option": nothing. "Continue": one step along the script. "Complete Simulation": completes where it stands. "View Results": opens the results exactly when the cursor is not on a choice |
| SimulationEngine.ApplyAgrees | src/components/simulation/SimulationEngine.tsx:385-387 | the page's wiring and the intended wiring differ only on a run completed on a choice |
| SimulationEngine.ApplyFixedKeepsCoherent | src/components/simulation/SimulationEngine.tsx:385-387 | the intended wiring keeps the state coherent and only extends the history, except on restart |
| SimulationEngine.RunFixedKeepsCoherent | src/components/simulation/SimulationEngine.tsx:385-387 | any sequence of actions under the intended wiring keeps the state coherent |
| SimulationEngine.RunAgrees | src/components/simulation/SimulationEngine.tsx:385-387 | on a scenario whose script does not end on a choice, both wirings give the same run from every coherent state |
| SimulationEngine.StuckAfterFinalChoice | src/components/simulation/SimulationEngine.tsx:385-387 | as written, once a run completes on a final choice, no sequence of actions opens the results; the cursor stays, and the history only grows |
| SimulationEngine.NeverShowsResults | src/components/simulation/SimulationEngine.tsx:385-387 | as written, on a scenario ending on a choice, no sequence of actions from a coherent state without results ever opens the results view |
| SimulationEngine.StuckPickRecords | src/components/simulation/SimulationEngine.tsx:338-353 | as written, after completion each click on an option of the final choice appends one more answer and changes nothing else |
| SimulationEngine.FinalPressStuck | src/components/simulation/SimulationEngine.tsx:385-387 | on a scenario ending on a choice, a run that presses once right after completing opens the results as intended; as written it ends in the same state with the results closed |
| SimulationEngine.FixedPressShowsResults | src/components/simulation/SimulationEngine.tsx:386-387 | under the intended wiring, a completed run opens its results with one press |
| EngineRuns.WalkReachesResults | src/components/simulation/SimulationEngine.tsx:64-139 | under the intended wiring, the walk that always picks the option of one rating opens the results. The answers it adds are exactly one record per remaining choice, in script order |
| EngineRuns.WalkEndsWithFinalPress | src/components/simulation/SimulationEngine.tsx:127-135 | the walk presses the button exactly once after the run completes, and then stops |
| EngineRuns.FixedPlaythrough | src/components/simulation/SimulationEngine.tsx:64-139 | from the start, the intended run opens the results. It has one answer per choice of the script, all of the chosen rating |
| EngineRuns.AsWrittenPlaythrough | src/components/simulation/SimulationEngine.tsx:385-387 | from the start, the page's run equals the intended one when the script does not end on a choice; otherwise it equals it with the results closed |
| EngineRuns.RatedRunScore | src/components/simulation/SimulationEngine.tsx:212-239 | a non-empty history of all-good answers scores 100 and is Expert; one of all-bad answers scores 0 and is Developing |
| CatalogueRuns.CrossExaminationGoodAnswers | src/data/simulationData.ts:46-266 | always picking the good option of cross-examination records approach-2, q1-1, q2-1, q3-1 and q4-1, against their choices in order |
| CatalogueRuns.OpeningStatementGoodAnswers | src/data/simulationData.ts:267-422 | always picking the good option of opening-statement records the good option of each of its four choices in order |
| CatalogueRuns.JurySelectionGoodAnswers | src/data/simulationData.ts:423-589 | always picking the good option of jury-selection records the good option of each of its four choices in order |
| CatalogueRuns.CrossExaminationRuns | src/components/simulation/SimulationEngine.tsx:64-139 | on cross-examination, the all-good walk reaches the results with five answers, score 100, Expert; the all-bad walk reaches them with score 0, Developing |
| CatalogueRuns.OpeningStatementRuns | src/components/simulation/SimulationEngine.tsx:64-139 | on opening-statement, the all-good walk reaches the results with four answers, score 100, Expert |
| CatalogueRuns.JurySelectionRuns | src/components/simulation/SimulationEngine.tsx:385-387 | on jury-selection, as written, no action sequence from the start opens the results; the all-good walk ends complete with its four answers. Under the intended wiring, the same walk opens the results with score 100 |
| CaseManager.DeleteFile | src/pages/CaseManager.tsx:64-69 | after a delete, a file is in the list exactly when it was before and carries another id; the list shrinks by the number of files with that id |
| CaseManager.DeleteAppend | src/pages/CaseManager.tsx:66 | the delete distributes over concatenation, so the kept files stay in their original order |
| CaseManager.DeleteAbsent | src/pages/CaseManager.tsx:66 | deleting an id no file carries leaves the list unchanged |
| CaseManager.DeleteCommutes | src/pages/CaseManager.tsx:66 | two deletes give the same list in either order |
| CaseManager.DeleteIdempotent | src/pages/CaseManager.tsx:64-69 | a second delete of the same id changes nothing |
| CaseManager.AnalyzeFile | src/pages/CaseManager.tsx:76-82 | the analysis sets status analysed on the files with that id; length, order, other fields and other files are unchanged |
| CaseManager.AnalyzeClearsPending | src/pages/CaseManager.tsx:185-193 | after the analysis no file with that id offers the Analyze button; the set of pending ids loses exactly that id |
| CaseManager.AnalyzeNoOp | src/pages/CaseManager.tsx:78-80 | the analysis changes the list exactly when some file with that id is pending |
| CaseManager.AnalyzeIdempotent | src/pages/CaseManager.tsx:78-80 | a second analysis of the same id changes nothing |
| CaseManager.DeleteAnalyzeCommute | src/pages/CaseManager.tsx:64-85 | deleting one id and analysing another give the same list in either order |
| CaseManager.MockFilesPending | src/pages/CaseManager.tsx:33-58 | on the loaded list, only file 3 is pending; analysing it leaves nothing pending |
| CaseManager.MockFilesDelete | src/pages/CaseManager.tsx:33-58 | deleting file 3 from the loaded list leaves files 1 and 2 in order; deleting an unknown id changes nothing |
| CaseUpload.AddBatch | src/components/CaseUpload.tsx:68-75 | adding a batch keeps the earlier entries, then appends one uploading entry per file, with its name and size, in file-list order |
| CaseUpload.CompleteTrailing | src/components/CaseUpload.tsx:78-86 | the completion keeps the length, names and sizes; it marks complete every entry among the last n and leaves earlier statuses alone |
| CaseUpload.UploadCompletesBatch | src/components/CaseUpload.tsx:68-86 | a batch added and then completed leaves the earlier entries as they were; each file of the batch becomes a complete entry with its name and size |
| CaseUpload.UploadCountsBatch | src/components/CaseUpload.tsx:68-86 | a batch added and then completed raises the number of complete entries by exactly the batch size |
| CaseUpload.AddBatchTwice | src/components/CaseUpload.tsx:75 | two batches added one after the other give the same list as their concatenation added at once |
| CaseUpload.HandleDrag | src/components/CaseUpload.tsx:42-50 | dragenter and dragover light the zone; dragleave clears it; the entries are untouched |
| CaseUpload.LastDragDecides | src/components/CaseUpload.tsx:42-50 | after any non-empty sequence of drag events the zone is lit exactly when the last event was not a dragleave, and the entries are unchanged |
| CaseUpload.HandleDrop | src/components/CaseUpload.tsx:52-60 | a drop always clears the highlight; the list changes exactly when the drop carries a file; in that case it grows by the dropped files |
| CaseUpload.HandleFileChange | src/components/CaseUpload.tsx:62-66 | choosing files keeps the highlight; the list changes exactly when some file was chosen |
| CaseUpload.AnalyzeShownCount | src/components/CaseUpload.tsx:151 | "Analyze Documents" is shown exactly when at least one entry is complete, and only under a visible list |
| CaseUpload.DropThenComplete | src/components/CaseUpload.tsx:151 | a drop alone never changes whether the button shows; the completion of a non-empty dropped batch always shows it |

## Left out

- Narrative prose is not modelled. This covers the interaction `content`, the option `text` and `consequence`, stage descriptions, and scenario descriptions, objectives and context. The engine only displays these texts and never branches on them. Ids, types, ratings, speakers, roles, feedback texts and outcomes are modelled.
- The scenario `icon` (a React component) and all JSX layout, styling and animation are not modelled.
- Toasts, navigation to the scenario list, the "Simulation not found" redirect and the sign-in modal are not modelled: they are side effects with no state the core reads.
- The exit confirmation and the delete confirmation (`window.confirm`) are not modelled. A delete is modelled as the confirmed outcome.
- The timers are not modelled: the simulated load of the case list, the analysis delay and the upload delay. Each list update is modelled as the state after the timer fires.
- Overlapping upload batches are not modelled. If a second batch lands before the first batch's timer fires, the positional "last n" completion marks the wrong entries. This is an interleaving of timers, not a sequential behaviour.
- React's state batching is not modelled. The stale `files` closure in the upload handler matters only under the same interleaving.
- The download button and the "Return to Scenarios" button are not modelled: they only toast or navigate.
- `formatFileSize` is not modelled, because it relies on floating-point `Math.log`, `Math.pow` and `toFixed`. An incoming file carries its size label already formatted.
- SimulationEngine.Progress: the value uses exact rational arithmetic, not JavaScript floats. `completed / total * 100` in floats can land just below an integer; the floor is then one less than the exact value.
- SimulationEngine.Score: `Math.round` is modelled on the exact ratio, so float rounding at an exact half is not modelled.
- The engine has no transcript and no free-text input; an interaction is a prompt, a choice or a feedback beat (src/data/simulationData.ts:27).
- SimulationEngine.ResultsView: it requires a cursor on an existing stage, because the results view dereferences the current stage to read its outcome.
- The auth hook, the sign-up form, the landing page sections and the navigation bar are outside the modelled core.

## Findings

| source | as written | input that shows it | evidently intended | confidence | as-written member | corrected member |
|---|---|---|---|---|---|---|
| src/components/simulation/SimulationEngine.tsx:386-387 | The primary button is disabled whenever the current interaction is a choice. Completion leaves the cursor on the last interaction. So when a script ends on a choice, answering it completes the run but leaves the "View Results" button disabled, and the results view can never open. The option buttons stay rendered, and each further click appends another answer. | the jury-selection scenario (src/data/simulationData.ts:561-584), whose last interaction is `challenge-choice`; pick any option of every choice | once the run is complete, the button opens the results, and the options are no longer offered | not executed | SimulationEngine.NeverShowsResults | EngineRuns.FixedPlaythrough |

=== FILE: case_manager.dfy ===
/** The case file list of the case manager page (src/pages/CaseManager.tsx):
    deleting a file by id (a filter) and marking a file analysed by id (a
    map). The confirmation dialog, the toasts and the timers around these
    list updates are not modelled: each operation is the list update the
    page performs once the user has confirmed or the timer has fired. */
module CaseManager {
  import opened Wrappers

  datatype Status = Analyzed | Pending

  /** A row of the table; `fileType` is the source's `type` field. */
  datatype CaseFile = CaseFile(
    id: string,
    name: string,
    fileType: string,
    size: string,
    uploadDate: string,
    status: Status)

  /** The three files the page shows once its simulated load has finished. */
  const MockFiles: seq<CaseFile> := [
    CaseFile("1", "Brief-Smith-v-Johnson.pdf", "PDF", "1.2 MB", "2023-06-15", Analyzed),
    CaseFile("2", "Evidence-Exhibit-A.docx", "DOCX", "3.5 MB", "2023-06-14", Analyzed),
    CaseFile("3", "Witness-Testimony.pdf", "PDF", "2.8 MB", "2023-06-10", Pending)
  ]

  // ---------------------------------------------------------------------
  // Observations used by the contracts

  /** The number of files carrying `id`. */
  function CountId(files: seq<CaseFile>, id: string): nat {
    if |files| == 0 then 0
    else (if files[0].id == id then 1 else 0) + CountId(files[1..], id)
  }

  /** The ids of the files still waiting for analysis. */
  function PendingIds(files: seq<CaseFile>): (r: set<string>)
    ensures forall x :: x in r <==> exists f :: f in files && f.status == Pending && f.id == x
  {
    set f | f in files && f.status == Pending :: f.id
  }

  /** The row's "Analyze" button is rendered for pending files only. */
  predicate AnalyzeOffered(f: CaseFile) {
    f.status == Pending
  }

  // ---------------------------------------------------------------------
  // Delete

  /** The confirmed delete: every file with that id leaves the list. */
  function DeleteFile(files: seq<CaseFile>, id: string): (r: seq<CaseFile>)
    ensures forall f :: f in r <==> f in files && f.id != id
    ensures |r| == |files| - CountId(files, id)
  {
    if |files| == 0 then []
    else if files[0].id == id then DeleteFile(files[1..], id)
    else [files[0]] + DeleteFile(files[1..], id)
  }

  /** Deleting distributes over concatenation: together with the one-file
      case this pins down the result, so the files kept stay in their
      original order. */
  lemma {:induction false} DeleteAppend(a: seq<CaseFile>, b: seq<CaseFile>, id: string)
    ensures DeleteFile(a + b, id) == DeleteFile(a, id) + DeleteFile(b, id)
    decreases |a|
  {
    if |a| == 0 {
      assert a + b == b;
    } else {
      assert (a + b)[0] == a[0];
      assert (a + b)[1..] == a[1..] + b;
      DeleteAppend(a[1..], b, id);
      if a[0].id != id {
        AppendAssociates([a[0]], DeleteFile(a[1..], id), DeleteFile(b, id));
      }
    }
  }

  /** Deleting an id no file carries leaves the list unchanged. */
  lemma {:induction false} DeleteAbsent(files: seq<CaseFile>, id: string)
    requires forall f :: f in files ==> f.id != id
    ensures DeleteFile(files, id) == files
    decreases |files|
  {
    if |files| > 0 {
      assert files[0] in files;
      DeleteAbsent(files[1..], id);
      assert [files[0]] + files[1..] == files;
    }
  }

  /** A second delete of the same id changes nothing. */
  lemma {:induction false} DeleteIdempotent(files: seq<CaseFile>, id: string)
    ensures DeleteFile(DeleteFile(files, id), id) == DeleteFile(files, id)
  {
    DeleteAbsent(DeleteFile(files, id), id);
  }

  /** Deletes of two ids can be done in either order. */
  lemma {:induction false} DeleteCommutes(files: seq<CaseFile>, a: string, b: string)
    ensures DeleteFile(DeleteFile(files, a), b) == DeleteFile(DeleteFile(files, b), a)
    decreases |files|
  {
    if |files| > 0 {
      DeleteCommutes(files[1..], a, b);
      if files[0].id != a && files[0].id != b {
        var once := [files[0]] + DeleteFile(files[1..], a);
        assert once[0] == files[0] && once[1..] == DeleteFile(files[1..], a);
        var other := [files[0]] + DeleteFile(files[1..], b);
        assert other[0] == files[0] && other[1..] == DeleteFile(files[1..], b);
      } else if files[0].id != a {
        var once := [files[0]] + DeleteFile(files[1..], a);
        assert once[0] == files[0] && once[1..] == DeleteFile(files[1..], a);
      } else if files[0].id != b {
        var other := [files[0]] + DeleteFile(files[1..], b);
        assert other[0] == files[0] && other[1..] == DeleteFile(files[1..], b);
      }
    }
  }

  // ---------------------------------------------------------------------
  // Analyze

  /** The status update that completes an analysis: the file with that id
      becomes analysed, every other field and every other file is kept. */
  function AnalyzeFile(files: seq<CaseFile>, id: string): (r: seq<CaseFile>)
    ensures |r| == |files|
    ensures forall i :: 0 <= i < |files| ==>
      r[i] == files[i].(status := if files[i].id == id then Analyzed else files[i].status)
  {
    if |files| == 0 then []
    else [if files[0].id == id then files[0].(status := Analyzed) else files[0]] + AnalyzeFile(files[1..], id)
  }

  /** After the analysis no file with that id is offered for analysis, and
      the set of pending ids loses exactly that id. */
  lemma AnalyzeClearsPending(files: seq<CaseFile>, id: string)
    ensures forall f :: f in AnalyzeFile(files, id) && f.id == id ==> !AnalyzeOffered(f)
    ensures PendingIds(AnalyzeFile(files, id)) == PendingIds(files) - {id}
  {
    var r := AnalyzeFile(files, id);
    forall x | x in PendingIds(r)
      ensures x in PendingIds(files) - {id}
    {
      var f :| f in r && f.status == Pending && f.id == x;
      var i :| 0 <= i < |r| && r[i] == f;
      assert files[i] in files;
    }
    forall x | x in PendingIds(files) - {id}
      ensures x in PendingIds(r)
    {
      var f :| f in files && f.status == Pending && f.id == x;
      var i :| 0 <= i < |files| && files[i] == f;
      assert r[i] == f;
    }
  }

  /** Analysing leaves the list unchanged exactly when no file with that id
      is pending. */
  lemma AnalyzeNoOp(files: seq<CaseFile>, id: string)
    ensures AnalyzeFile(files, id) == files <==> id !in PendingIds(files)
  {
    var r := AnalyzeFile(files, id);
    if id in PendingIds(files) {
      var f :| f in files && f.status == Pending && f.id == id;
      var i :| 0 <= i < |files| && files[i] == f;
      assert r[i].status != files[i].status;
    } else {
      forall i | 0 <= i < |files|
        ensures r[i] == files[i]
      {
        assert files[i] in files;
      }
    }
  }

  /** A second analysis of the same id changes nothing. */
  lemma AnalyzeIdempotent(files: seq<CaseFile>, id: string)
    ensures AnalyzeFile(AnalyzeFile(files, id), id) == AnalyzeFile(files, id)
  {
    AnalyzeClearsPending(files, id);
    AnalyzeNoOp(AnalyzeFile(files, id), id);
  }

  /** Deleting one id and analysing another can be done in either order. */
  lemma {:induction false} DeleteAnalyzeCommute(files: seq<CaseFile>, del: string, an: string)
    ensures DeleteFile(AnalyzeFile(files, an), del) == AnalyzeFile(DeleteFile(files, del), an)
    decreases |files|
  {
    if |files| > 0 {
      DeleteAnalyzeCommute(files[1..], del, an);
      var head := if files[0].id == an then files[0].(status := Analyzed) else files[0];
      var analysed := [head] + AnalyzeFile(files[1..], an);
      assert analysed[0] == head && analysed[1..] == AnalyzeFile(files[1..], an);
      if files[0].id != del {
        var kept := [files[0]] + DeleteFile(files[1..], del);
        assert kept[0] == files[0] && kept[1..] == DeleteFile(files[1..], del);
      }
    }
  }

  /** On the loaded list only the third file is offered for analysis, and
      analysing it leaves nothing pending. */
  lemma MockFilesPending()
    ensures PendingIds(MockFiles) == {"3"}
    ensures PendingIds(AnalyzeFile(MockFiles, "3")) == {}
  {
    assert MockFiles[2] in MockFiles;
    AnalyzeClearsPending(MockFiles, "3");
  }

  /** Deleting the third file leaves the two analysed files in order, and
      deleting an id not on the list changes nothing. */
  lemma MockFilesDelete()
    ensures DeleteFile(MockFiles, "3") == MockFiles[..2]
    ensures DeleteFile(MockFiles, "4") == MockFiles
  {
    var front := MockFiles[..2];
    DeleteAppend(front, [MockFiles[2]], "3");
    assert front + [MockFiles[2]] == MockFiles;
    DeleteAbsent(front, "3");
    DeleteAbsent(MockFiles, "4");
  }
}

=== FILE: case_upload.dfy ===
/** The upload panel (src/components/CaseUpload.tsx): the list of uploaded
    entries, the append of a dropped or chosen batch as `uploading`, the
    later marking of the trailing batch as `complete`, and the `dragActive`
    flag that the drag events switch. The byte size of a file is formatted
    by a floating-point helper that is not modelled; an incoming file
    carries its size label already formatted. */
module CaseUpload {

  datatype UploadStatus = Uploading | Complete | Error

  /** An entry of the "Uploaded Files" list. */
  datatype UploadEntry = UploadEntry(name: string, size: string, status: UploadStatus)

  /** A file of the browser's file list: its name and its size label. */
  datatype IncomingFile = IncomingFile(name: string, size: string)

  /** The drag events the drop zone listens to with its drag handler. */
  datatype DragEvent = DragEnter | DragOver | DragLeave

  /** The component's state: the highlight flag and the entry list. */
  datatype UploadState = UploadState(dragActive: bool, files: seq<UploadEntry>)

  /** The entry a new file gets when its batch is added. */
  function Fresh(f: IncomingFile): UploadEntry {
    UploadEntry(f.name, f.size, Uploading)
  }

  // ---------------------------------------------------------------------
  // The entry list

  /** The append of a batch: the existing entries, then one `uploading`
      entry per incoming file, in the order of the file list. */
  function AddBatch(files: seq<UploadEntry>, batch: seq<IncomingFile>): (r: seq<UploadEntry>)
    ensures |r| == |files| + |batch|
    ensures r[..|files|] == files
    ensures forall k :: 0 <= k < |batch| ==>
      r[|files| + k].name == batch[k].name && r[|files| + k].size == batch[k].size
      && r[|files| + k].status == Uploading
  {
    files + seq(|batch|, k requires 0 <= k < |batch| => Fresh(batch[k]))
  }

  /** The completion that fires after a batch of `n` files: every entry at
      an index no smaller than `|files| - n` becomes `complete`. */
  function CompleteTrailing(files: seq<UploadEntry>, n: nat): (r: seq<UploadEntry>)
    ensures |r| == |files|
    ensures forall i :: 0 <= i < |files| ==>
      r[i].name == files[i].name && r[i].size == files[i].size
      && (i < |files| - n ==> r[i].status == files[i].status)
      && (i >= |files| - n ==> r[i].status == Complete)
  {
    seq(|files|, i requires 0 <= i < |files| =>
      if i >= |files| - n then files[i].(status := Complete) else files[i])
  }

  /** The number of entries with the given status. */
  function CountStatus(files: seq<UploadEntry>, s: UploadStatus): nat {
    if |files| == 0 then 0
    else (if files[0].status == s then 1 else 0) + CountStatus(files[1..], s)
  }

  lemma {:induction false} CountStatusAppend(a: seq<UploadEntry>, b: seq<UploadEntry>, s: UploadStatus)
    ensures CountStatus(a + b, s) == CountStatus(a, s) + CountStatus(b, s)
    decreases |a|
  {
    if |a| == 0 {
      assert a + b == b;
    } else {
      assert (a + b)[0] == a[0];
      assert (a + b)[1..] == a[1..] + b;
      CountStatusAppend(a[1..], b, s);
    }
  }

  lemma {:induction false} CountStatusAll(files: seq<UploadEntry>, s: UploadStatus)
    requires forall i :: 0 <= i < |files| ==> files[i].status == s
    ensures CountStatus(files, s) == |files|
    decreases |files|
  {
    if |files| > 0 {
      CountStatusAll(files[1..], s);
    }
  }

  /** Adding a batch and then running its completion marks exactly that
      batch `complete`: the earlier entries are as they were, and each file
      of the batch has a complete entry. */
  lemma UploadCompletesBatch(files: seq<UploadEntry>, batch: seq<IncomingFile>)
    ensures var r := CompleteTrailing(AddBatch(files, batch), |batch|);
      && r[..|files|] == files
      && (forall k :: 0 <= k < |batch| ==> r[|files| + k] == UploadEntry(batch[k].name, batch[k].size, Complete))
  {
    var added := AddBatch(files, batch);
    var r := CompleteTrailing(added, |batch|);
    assert r[..|files|] == files by {
      forall i | 0 <= i < |files|
        ensures r[i] == files[i]
      {
        assert added[i] == files[i];
      }
    }
  }

  /** The same completion adds the size of the batch to the number of
      complete entries. */
  lemma UploadCountsBatch(files: seq<UploadEntry>, batch: seq<IncomingFile>)
    ensures CountStatus(CompleteTrailing(AddBatch(files, batch), |batch|), Complete)
         == CountStatus(files, Complete) + |batch|
  {
    var r := CompleteTrailing(AddBatch(files, batch), |batch|);
    UploadCompletesBatch(files, batch);
    var tail := r[|files|..];
    assert r == r[..|files|] + tail;
    forall i | 0 <= i < |tail|
      ensures tail[i].status == Complete
    {
      assert tail[i] == r[|files| + i];
    }
    CountStatusAll(tail, Complete);
    CountStatusAppend(r[..|files|], tail, Complete);
  }

  /** Two batches added one after the other are the same as one batch. */
  lemma AddBatchTwice(files: seq<UploadEntry>, a: seq<IncomingFile>, b: seq<IncomingFile>)
    ensures AddBatch(AddBatch(files, a), b) == AddBatch(files, a + b)
  {
    var lhs := AddBatch(AddBatch(files, a), b);
    var rhs := AddBatch(files, a + b);
    forall i | 0 <= i < |lhs|
      ensures lhs[i] == rhs[i]
    {
      if i >= |files| + |a| {
        assert (a + b)[i - |files|] == b[i - |files| - |a|];
      } else if i >= |files| {
        assert (a + b)[i - |files|] == a[i - |files|];
      }
    }
  }

  // ---------------------------------------------------------------------
  // Event handlers

  /** The drag handler: entering or moving over the zone lights it, leaving
      it clears it; the entries are untouched. */
  function HandleDrag(st: UploadState, e: DragEvent): (r: UploadState)
    ensures r.files == st.files
    ensures r.dragActive <==> e != DragLeave
  {
    match e
    case DragEnter => st.(dragActive := true)
    case DragOver => st.(dragActive := true)
    case DragLeave => st.(dragActive := false)
  }

  /** A gesture over the zone: the drag events in the order they fire. */
  function DragAll(st: UploadState, es: seq<DragEvent>): UploadState
    decreases |es|
  {
    if |es| == 0 then st else DragAll(HandleDrag(st, es[0]), es[1..])
  }

  /** However a gesture wanders in and out of the zone, the highlight is what
      its last event left, and the entries are as before. */
  lemma {:induction false} LastDragDecides(st: UploadState, es: seq<DragEvent>)
    requires |es| > 0
    ensures DragAll(st, es) == st.(dragActive := es[|es| - 1] != DragLeave)
    decreases |es|
  {
    if |es| > 1 {
      LastDragDecides(HandleDrag(st, es[0]), es[1..]);
      assert es[1..][|es[1..]| - 1] == es[|es| - 1];
    }
  }

  /** The shared file-list handler: a non-empty list is added as a batch,
      an empty one changes nothing. */
  function AcceptFiles(files: seq<UploadEntry>, dropped: seq<IncomingFile>): seq<UploadEntry> {
    if |dropped| > 0 then AddBatch(files, dropped) else files
  }

  /** The drop handler: the highlight always clears. */
  function HandleDrop(st: UploadState, dropped: seq<IncomingFile>): (r: UploadState)
    ensures !r.dragActive
    ensures r.files == st.files <==> |dropped| == 0
    ensures |r.files| == |st.files| + |dropped|
    ensures r.files[..|st.files|] == st.files
  {
    UploadState(false, AcceptFiles(st.files, dropped))
  }

  /** The file input's change handler: the highlight is untouched. */
  function HandleFileChange(st: UploadState, chosen: seq<IncomingFile>): (r: UploadState)
    ensures r.dragActive == st.dragActive
    ensures r.files == st.files <==> |chosen| == 0
    ensures |r.files| == |st.files| + |chosen|
    ensures r.files[..|st.files|] == st.files
  {
    st.(files := AcceptFiles(st.files, chosen))
  }

  /** The list header and the entries are rendered when there is an entry. */
  predicate ListShown(st: UploadState) {
    |st.files| > 0
  }

  /** "Analyze Documents" is rendered when some entry is complete. */
  predicate AnalyzeShown(st: UploadState) {
    exists i :: 0 <= i < |st.files| && st.files[i].status == Complete
  }

  /** The analyze button is shown exactly when at least one entry counts as
      complete, and only under a visible list. */
  lemma AnalyzeShownCount(st: UploadState)
    ensures AnalyzeShown(st) <==> CountStatus(st.files, Complete) > 0
    ensures AnalyzeShown(st) ==> ListShown(st)
  {
    if AnalyzeShown(st) {
      var i :| 0 <= i < |st.files| && st.files[i].status == Complete;
      CountPositive(st.files, i);
    } else {
      CountZero(st.files);
    }
  }

  lemma {:induction false} CountPositive(files: seq<UploadEntry>, i: nat)
    requires i < |files| && files[i].status == Complete
    ensures CountStatus(files, Complete) > 0
    decreases i
  {
    if i > 0 {
      CountPositive(files[1..], i - 1);
    }
  }

  lemma {:induction false} CountZero(files: seq<UploadEntry>)
    requires forall i :: 0 <= i < |files| ==> files[i].status != Complete
    ensures CountStatus(files, Complete) == 0
    decreases |files|
  {
    if |files| > 0 {
      CountZero(files[1..]);
    }
  }

  /** A drop of a non-empty batch followed by its completion shows the
      analyze button; before the completion fires, the button is shown
      only if it already was. */
  lemma DropThenComplete(st: UploadState, dropped: seq<IncomingFile>)
    requires |dropped| > 0
    ensures var mid := HandleDrop(st, dropped);
      && (AnalyzeShown(mid) <==> AnalyzeShown(st))
      && AnalyzeShown(mid.(files := CompleteTrailing(mid.files, |dropped|)))
  {
    var mid := HandleDrop(st, dropped);
    if AnalyzeShown(mid) {
      var i :| 0 <= i < |mid.files| && mid.files[i].status == Complete;
      assert i < |st.files| && mid.files[i] == st.files[i];
    }
    if AnalyzeShown(st) {
      var i :| 0 <= i < |st.files| && st.files[i].status == Complete;
      assert mid.files[..|st.files|][i] == mid.files[i];
    }
    var done := CompleteTrailing(mid.files, |dropped|);
    assert done[|mid.files| - 1].status == Complete;
  }
}

=== FILE: catalogue.dfy ===
/** The three scenarios of the catalogue (src/data/simulationData.ts,
    `simulationScenarios`) as constants, the lookup by id the engine starts
    from, and the well-formedness facts the engine relies on, discharged
    for the real data. */
module Catalogue {
  import opened Wrappers
  import opened SimulationData

  /** A `prompt` interaction: a narrative beat attributed to a speaker. */
  function PromptBeat(id: string, speaker: string, role: string): SimulationInteraction {
    SimulationInteraction(id, Prompt, Some(speaker), Some(role), None, None)
  }

  /** A `choice` interaction: a question with rated options. */
  function ChoiceBeat(id: string, options: seq<SimulationOption>): SimulationInteraction {
    SimulationInteraction(id, Choice, None, None, Some(options), None)
  }

  /** A `feedback` interaction with its positive and negative texts. */
  function FeedbackBeat(id: string, positive: string, negative: string): SimulationInteraction {
    SimulationInteraction(id, Feedback, None, None, None, Some(FeedbackText(positive, negative)))
  }

  /** Three options whose ratings are pairwise different: one good, one
      neutral and one bad, in some order. */
  predicate ThreeWay(opts: seq<SimulationOption>) {
    && |opts| == 3
    && opts[0].value != opts[1].value
    && opts[0].value != opts[2].value
    && opts[1].value != opts[2].value
  }

  /** Every choice of the stage offers a three-way rated set of options. */
  predicate StageThreeWay(st: SimulationStage) {
    forall i :: 0 <= i < |st.interactions| && st.interactions[i].kind == Choice ==>
      st.interactions[i].options.Some? && ThreeWay(st.interactions[i].options.value)
  }

  /** Every choice of every stage of sc has three options, one of each rating. */
  predicate ThreeWayChoices(sc: SimulationScenario) {
    forall k :: 0 <= k < |sc.stages| ==> StageThreeWay(sc.stages[k])
  }

  /** What the catalogue data states about one stage: its id, the ids of its
      interactions in order, that it is well formed with three-way rated
      choices, and that it carries an outcome exactly when it is the last. */
  predicate StageFacts(st: SimulationStage, id: string, ids: seq<string>, isLast: bool) {
    && st.id == id
    && InteractionIds(st.interactions) == ids
    && StageWellFormed(st)
    && StageThreeWay(st)
    && st.outcome.Some? == isLast
  }

  /** The lists of xss, one after the other. */
  function Concat(xss: seq<seq<string>>): seq<string> {
    if |xss| == 0 then [] else Concat(xss[..|xss| - 1]) + xss[|xss| - 1]
  }

  lemma ConcatThree(a: seq<string>, b: seq<string>, c: seq<string>)
    ensures Concat([a, b, c]) == a + b + c
  {
    assert [a, b, c][..2] == [a, b];
    assert [a, b][..1] == [a];
    assert [a][..0] == [];
    assert Concat([a]) == a;
    assert Concat([a, b]) == a + b;
  }

  lemma ConcatFour(a: seq<string>, b: seq<string>, c: seq<string>, d: seq<string>)
    ensures Concat([a, b, c, d]) == a + b + c + d
  {
    assert [a, b, c, d][..3] == [a, b, c];
    ConcatThree(a, b, c);
  }

  lemma ThreeWayOffersAll(opts: seq<SimulationOption>, v: Rating)
    requires ThreeWay(opts)
    ensures FirstRated(opts, v).Some?
  {
  }

  /** A scenario whose stages satisfy their StageFacts, with distinct stage
      ids and distinct interaction ids overall, is well formed and offers
      every rating at every choice. */
  lemma {:induction false} Assemble(sc: SimulationScenario, stageIds: seq<string>, ids: seq<seq<string>>)
    requires |sc.stages| == |stageIds| == |ids| > 0
    requires forall k :: 0 <= k < |sc.stages| ==>
      StageFacts(sc.stages[k], stageIds[k], ids[k], k == |sc.stages| - 1)
    requires DistinctStrings(stageIds) && DistinctStrings(Concat(ids))
    ensures WellFormed(sc) && ThreeWayChoices(sc)
    ensures forall v :: EveryChoiceOffers(sc, v)
  {
    var n := |sc.stages|;
    forall k | 0 <= k <= n ensures StageIds(sc.stages, k) == Concat(ids[..k]) {
      ConcatMatches(sc, stageIds, ids, k);
    }
    assert ids[..n] == ids;
    StageIdsAreScriptIds(sc.stages, n);
    DistinctIdsFromList(Script(sc));
    forall i, j | 0 <= i < j < n ensures sc.stages[i].id != sc.stages[j].id {
      assert stageIds[i] != stageIds[j];
    }
    forall v: Rating ensures EveryChoiceOffers(sc, v) {
      forall k, i | 0 <= k < n && 0 <= i < |sc.stages[k].interactions| && sc.stages[k].interactions[i].kind == Choice
        ensures FirstRated(sc.stages[k].interactions[i].options.value, v).Some?
      {
        assert StageThreeWay(sc.stages[k]);
        ThreeWayOffersAll(sc.stages[k].interactions[i].options.value, v);
      }
    }
  }

  lemma {:induction false} ConcatMatches(sc: SimulationScenario, stageIds: seq<string>, ids: seq<seq<string>>, k: nat)
    requires k <= |sc.stages| == |stageIds| == |ids|
    requires forall k :: 0 <= k < |sc.stages| ==>
      StageFacts(sc.stages[k], stageIds[k], ids[k], k == |sc.stages| - 1)
    ensures StageIds(sc.stages, k) == Concat(ids[..k])
  {
    if k > 0 {
      ConcatMatches(sc, stageIds, ids, k - 1);
      assert ids[..k][..k - 1] == ids[..k - 1];
      assert StageFacts(sc.stages[k - 1], stageIds[k - 1], ids[k - 1], k - 1 == |sc.stages| - 1);
    }
  }

  const CrossPreparation: SimulationStage := SimulationStage(
    "stage-1", "Preparation",
    [
      PromptBeat("intro-1", "System", "Instructor"),
      ChoiceBeat("prep-choice-1",
        [SimulationOption("approach-1", Bad), SimulationOption("approach-2", Good), SimulationOption("approach-3", Neutral)])
    ],
    None)

  const CrossInitialQuestioning: SimulationStage := SimulationStage(
    "stage-2", "Initial Questioning",
    [
      PromptBeat("witness-intro", "Witness", "Store Employee"),
      ChoiceBeat("q1-choice",
        [SimulationOption("q1-1", Good), SimulationOption("q1-2", Bad), SimulationOption("q1-3", Neutral)]),
      PromptBeat("witness-response-1", "Witness", "Store Employee")
    ],
    None)

  const CrossCoreExamination: SimulationStage := SimulationStage(
    "stage-3", "Core Examination",
    [
      ChoiceBeat("q2-choice",
        [SimulationOption("q2-1", Good), SimulationOption("q2-2", Neutral), SimulationOption("q2-3", Bad)]),
      PromptBeat("witness-response-2", "Witness", "Store Employee"),
      ChoiceBeat("q3-choice",
        [SimulationOption("q3-1", Good), SimulationOption("q3-2", Bad), SimulationOption("q3-3", Neutral)])
    ],
    None)

  const CrossClosing: SimulationStage := SimulationStage(
    "stage-4", "Closing",
    [
      PromptBeat("witness-response-3", "Witness", "Store Employee"),
      ChoiceBeat("q4-choice",
        [SimulationOption("q4-1", Good), SimulationOption("q4-2", Bad), SimulationOption("q4-3", Neutral)]),
      PromptBeat("witness-final", "Witness", "Store Employee"),
      PromptBeat("closing", "You", "Defense Attorney")
    ],
    Some("Your cross-examination successfully " +
         "established that the witness did not see " +
         "what caused the fall and cannot confirm " +
         "whether warning signs were present. These " +
         "points support your defense that there's " +
         "insufficient evidence of your client's " +
         "negligence."))

  const CrossExamination: SimulationScenario := SimulationScenario(
    "cross-examination", "Cross-Examination", Medium, "30 min", "2-3",
    [CrossPreparation, CrossInitialQuestioning, CrossCoreExamination, CrossClosing])

  const OpeningPreparation: SimulationStage := SimulationStage(
    "prep-stage", "Preparation",
    [
      PromptBeat("prep-intro", "System", "Instructor"),
      ChoiceBeat("prep-choice",
        [SimulationOption("structure-1", Neutral), SimulationOption("structure-2", Good), SimulationOption("structure-3", Bad)])
    ],
    None)

  const OpeningStatementDelivery: SimulationStage := SimulationStage(
    "delivery-stage", "Statement Delivery",
    [
      ChoiceBeat("intro-choice",
        [SimulationOption("intro-1", Neutral), SimulationOption("intro-2", Good), SimulationOption("intro-3", Bad)]),
      ChoiceBeat("evidence-choice",
        [SimulationOption("evidence-1", Bad), SimulationOption("evidence-2", Neutral), SimulationOption("evidence-3", Good)])
    ],
    None)

  const OpeningConclusion: SimulationStage := SimulationStage(
    "conclusion-stage", "Conclusion",
    [
      ChoiceBeat("closing-choice",
        [SimulationOption("closing-1", Bad), SimulationOption("closing-2", Good), SimulationOption("closing-3", Neutral)]),
      FeedbackBeat("feedback",
        "You effectively presented a clear narrative " +
        "that connected with jurors emotionally " +
        "while outlining the evidence in a logical " +
        "sequence. Your conclusion appropriately " +
        "asked for accountability without being " +
        "overbearing.",
        "Your opening statement could be improved by " +
        "creating a more cohesive narrative and " +
        "avoiding technical jargon. Consider " +
        "focusing more on the human impact of the " +
        "alleged fraud and presenting a clearer " +
        "roadmap of your case.")
    ],
    Some("Your opening statement effectively set the " +
         "stage for your case, providing the jury " +
         "with a clear understanding of the evidence " +
         "they will see and the story it tells about " +
         "the defendant's actions."))

  const OpeningStatement: SimulationScenario := SimulationScenario(
    "opening-statement", "Opening Statement", Easy, "15 min", "1",
    [OpeningPreparation, OpeningStatementDelivery, OpeningConclusion])

  const JuryPreparation: SimulationStage := SimulationStage(
    "js-prep", "Preparation",
    [
      PromptBeat("js-prep-intro", "System", "Instructor"),
      ChoiceBeat("js-prep-choice",
        [SimulationOption("juror-concern-1", Good), SimulationOption("juror-concern-2", Bad), SimulationOption("juror-concern-3", Neutral)])
    ],
    None)

  const JuryVoirDireQuestioning: SimulationStage := SimulationStage(
    "voir-dire", "Voir Dire Questioning",
    [
      PromptBeat("juror-intro-1", "Potential Juror", "Accountant"),
      ChoiceBeat("voir-dire-q1",
        [SimulationOption("q-accountant-1", Good), SimulationOption("q-accountant-2", Bad), SimulationOption("q-accountant-3", Neutral)]),
      PromptBeat("juror-intro-2", "Potential Juror", "Office Worker"),
      ChoiceBeat("voir-dire-q2",
        [SimulationOption("q-accused-1", Good), SimulationOption("q-accused-2", Bad), SimulationOption("q-accused-3", Neutral)])
    ],
    None)

  const JuryJurorChallenges: SimulationStage := SimulationStage(
    "challenges", "Juror Challenges",
    [
      PromptBeat("challenge-intro", "System", "Instructor"),
      ChoiceBeat("challenge-choice",
        [SimulationOption("challenge-1", Good), SimulationOption("challenge-2", Neutral), SimulationOption("challenge-3", Bad)])
    ],
    Some("Your jury selection strategy has resulted " +
         "in a panel that includes several members " +
         "with personal experiences of workplace " +
         "conflicts and misunderstandings. You've " +
         "successfully removed jurors with strong " +
         "financial compliance backgrounds who might " +
         "have been skeptical of your defense theory."))

  const JurySelection: SimulationScenario := SimulationScenario(
    "jury-selection", "Jury Selection", Hard, "45 min", "5+",
    [JuryPreparation, JuryVoirDireQuestioning, JuryJurorChallenges])

  /** `simulationScenarios`, in source order. */
  const SimulationScenarios: seq<SimulationScenario> := [CrossExamination, OpeningStatement, JurySelection]

  /** The catalogue holds the three scenarios, in source order. */
  lemma CatalogueContents()
    ensures |SimulationScenarios| == 3
    ensures SimulationScenarios[0].id == "cross-examination" && SimulationScenarios[0].difficulty == Medium
    ensures SimulationScenarios[1].id == "opening-statement" && SimulationScenarios[1].difficulty == Easy
    ensures SimulationScenarios[2].id == "jury-selection" && SimulationScenarios[2].difficulty == Hard
  {
  }

  lemma CrossPreparationFacts()
    ensures StageFacts(CrossPreparation, "stage-1", ["intro-1", "prep-choice-1"], false)
  {}

  lemma CrossInitialQuestioningFacts()
    ensures StageFacts(CrossInitialQuestioning, "stage-2", ["witness-intro", "q1-choice", "witness-response-1"], false)
  {}

  lemma CrossCoreExaminationFacts()
    ensures StageFacts(CrossCoreExamination, "stage-3", ["q2-choice", "witness-response-2", "q3-choice"], false)
  {}

  lemma CrossClosingFacts()
    ensures StageFacts(CrossClosing, "stage-4", ["witness-response-3", "q4-choice", "witness-final", "closing"], true)
  {}

  lemma OpeningPreparationFacts()
    ensures StageFacts(OpeningPreparation, "prep-stage", ["prep-intro", "prep-choice"], false)
  {}

  lemma OpeningStatementDeliveryFacts()
    ensures StageFacts(OpeningStatementDelivery, "delivery-stage", ["intro-choice", "evidence-choice"], false)
  {}

  lemma OpeningConclusionFacts()
    ensures StageFacts(OpeningConclusion, "conclusion-stage", ["closing-choice", "feedback"], true)
  {}

  lemma JuryPreparationFacts()
    ensures StageFacts(JuryPreparation, "js-prep", ["js-prep-intro", "js-prep-choice"], false)
  {}

  lemma JuryVoirDireQuestioningFacts()
    ensures StageFacts(JuryVoirDireQuestioning, "voir-dire", ["juror-intro-1", "voir-dire-q1", "juror-intro-2", "voir-dire-q2"], false)
  {}

  lemma JuryJurorChallengesFacts()
    ensures StageFacts(JuryJurorChallenges, "challenges", ["challenge-intro", "challenge-choice"], true)
  {}

  /** cross-examination: well formed, every choice has three options,
      one of each rating, and the script does not end on a choice. */
  lemma CrossExaminationWellFormed()
    ensures WellFormed(CrossExamination) && ThreeWayChoices(CrossExamination)
    ensures forall v :: EveryChoiceOffers(CrossExamination, v)
    ensures !EndsOnChoice(CrossExamination)
  {
    CrossPreparationFacts();
    CrossInitialQuestioningFacts();
    CrossCoreExaminationFacts();
    CrossClosingFacts();
    CrossExaminationIdsDistinct();
    assert CrossExamination.stages == [CrossPreparation, CrossInitialQuestioning, CrossCoreExamination, CrossClosing];
    Assemble(CrossExamination, ["stage-1", "stage-2", "stage-3", "stage-4"], CrossExaminationIds);
  }

  /** The interaction ids of cross-examination, stage by stage. */
  const CrossExaminationIds: seq<seq<string>> :=
               [["intro-1", "prep-choice-1"],
                ["witness-intro", "q1-choice", "witness-response-1"],
                ["q2-choice", "witness-response-2", "q3-choice"],
                ["witness-response-3", "q4-choice", "witness-final", "closing"]]

  lemma CrossExaminationIdsDistinct()
    ensures DistinctStrings(["stage-1", "stage-2", "stage-3", "stage-4"])
    ensures DistinctStrings(Concat(CrossExaminationIds))
  {
    var ids := CrossExaminationIds;
    ConcatFour(ids[0], ids[1], ids[2], ids[3]);
    assert ids == [ids[0], ids[1], ids[2], ids[3]];
  }

  /** opening-statement: well formed, every choice has three options,
      one of each rating, and the script ends on a feedback beat. */
  lemma OpeningStatementWellFormed()
    ensures WellFormed(OpeningStatement) && ThreeWayChoices(OpeningStatement)
    ensures forall v :: EveryChoiceOffers(OpeningStatement, v)
    ensures !EndsOnChoice(OpeningStatement) && EndsOn(OpeningStatement, Feedback)
  {
    OpeningPreparationFacts();
    OpeningStatementDeliveryFacts();
    OpeningConclusionFacts();
    OpeningStatementIdsDistinct();
    assert OpeningStatement.stages == [OpeningPreparation, OpeningStatementDelivery, OpeningConclusion];
    Assemble(OpeningStatement, ["prep-stage", "delivery-stage", "conclusion-stage"], OpeningStatementIds);
  }

  /** The interaction ids of opening-statement, stage by stage. */
  const OpeningStatementIds: seq<seq<string>> :=
               [["prep-intro", "prep-choice"],
                ["intro-choice", "evidence-choice"],
                ["closing-choice", "feedback"]]

  lemma OpeningStatementIdsDistinct()
    ensures DistinctStrings(["prep-stage", "delivery-stage", "conclusion-stage"])
    ensures DistinctStrings(Concat(OpeningStatementIds))
  {
    var ids := OpeningStatementIds;
    ConcatThree(ids[0], ids[1], ids[2]);
    assert ids == [ids[0], ids[1], ids[2]];
  }

  /** jury-selection: well formed, every choice has three options,
      one of each rating, and the script ends on a choice. */
  lemma JurySelectionWellFormed()
    ensures WellFormed(JurySelection) && ThreeWayChoices(JurySelection)
    ensures forall v :: EveryChoiceOffers(JurySelection, v)
    ensures EndsOnChoice(JurySelection)
  {
    JuryPreparationFacts();
    JuryVoirDireQuestioningFacts();
    JuryJurorChallengesFacts();
    JurySelectionIdsDistinct();
    assert JurySelection.stages == [JuryPreparation, JuryVoirDireQuestioning, JuryJurorChallenges];
    Assemble(JurySelection, ["js-prep", "voir-dire", "challenges"], JurySelectionIds);
  }

  /** The interaction ids of jury-selection, stage by stage. */
  const JurySelectionIds: seq<seq<string>> :=
               [["js-prep-intro", "js-prep-choice"],
                ["juror-intro-1", "voir-dire-q1", "juror-intro-2", "voir-dire-q2"],
                ["challenge-intro", "challenge-choice"]]

  lemma JurySelectionIdsDistinct()
    ensures DistinctStrings(["js-prep", "voir-dire", "challenges"])
    ensures DistinctStrings(Concat(JurySelectionIds))
  {
    var ids := JurySelectionIds;
    ConcatThree(ids[0], ids[1], ids[2]);
    assert ids == [ids[0], ids[1], ids[2]];
  }

  /** Every scenario of the catalogue is well formed, with three options
      of distinct ratings at every choice; only jury-selection ends on a choice. */
  lemma CatalogueWellFormed()
    ensures forall k :: 0 <= k < |SimulationScenarios| ==> WellFormed(SimulationScenarios[k])
    ensures forall k :: 0 <= k < |SimulationScenarios| ==> ThreeWayChoices(SimulationScenarios[k])
    ensures forall k, v :: 0 <= k < |SimulationScenarios| ==> EveryChoiceOffers(SimulationScenarios[k], v)
    ensures forall k :: 0 <= k < |SimulationScenarios| ==>
      (EndsOnChoice(SimulationScenarios[k]) <==> SimulationScenarios[k].id == "jury-selection")
  {
    CrossExaminationWellFormed();
    OpeningStatementWellFormed();
    JurySelectionWellFormed();
  }

  /** The engine's lookup by route id finds each scenario of the catalogue
      under its own id, and nothing under any other id. */
  lemma CatalogueLookup()
    ensures DistinctScenarioIds(SimulationScenarios)
    ensures Find(SimulationScenarios, "cross-examination") == Some(CrossExamination)
    ensures Find(SimulationScenarios, "opening-statement") == Some(OpeningStatement)
    ensures Find(SimulationScenarios, "jury-selection") == Some(JurySelection)
    ensures forall id :: Find(SimulationScenarios, id).None? <==>
      id !in ["cross-examination", "opening-statement", "jury-selection"]
  {
    FindUnique(SimulationScenarios, 0);
    FindUnique(SimulationScenarios, 1);
    FindUnique(SimulationScenarios, 2);
  }
}

=== FILE: catalogue_runs.dfy ===
/** The engine run over the real catalogue: the answers a user who always
    picks the good option records in each scenario, and which scenarios
    reach their results view as the page is wired. */
module CatalogueRuns {
  import opened SimulationData
  import opened SimulationEngine
  import opened EngineRuns
  import opened Catalogue

  lemma CrossPreparationAnswers()
    ensures Records(CrossPreparation.interactions, Good) == [UserChoice("prep-choice-1", "approach-2", Good)]
  {}

  lemma CrossInitialQuestioningAnswers()
    ensures Records(CrossInitialQuestioning.interactions, Good) == [UserChoice("q1-choice", "q1-1", Good)]
  {}

  lemma CrossCoreExaminationAnswers()
    ensures Records(CrossCoreExamination.interactions, Good) == [UserChoice("q2-choice", "q2-1", Good), UserChoice("q3-choice", "q3-1", Good)]
  {}

  lemma CrossClosingAnswers()
    ensures Records(CrossClosing.interactions, Good) == [UserChoice("q4-choice", "q4-1", Good)]
  {}

  lemma OpeningPreparationAnswers()
    ensures Records(OpeningPreparation.interactions, Good) == [UserChoice("prep-choice", "structure-2", Good)]
  {}

  lemma OpeningStatementDeliveryAnswers()
    ensures Records(OpeningStatementDelivery.interactions, Good) == [UserChoice("intro-choice", "intro-2", Good), UserChoice("evidence-choice", "evidence-3", Good)]
  {}

  lemma OpeningConclusionAnswers()
    ensures Records(OpeningConclusion.interactions, Good) == [UserChoice("closing-choice", "closing-2", Good)]
  {
    var xs := OpeningConclusion.interactions;
    assert Records(xs[1..], Good) == [];
  }

  lemma JuryPreparationAnswers()
    ensures Records(JuryPreparation.interactions, Good) == [UserChoice("js-prep-choice", "juror-concern-1", Good)]
  {}

  lemma JuryVoirDireQuestioningAnswers()
    ensures Records(JuryVoirDireQuestioning.interactions, Good) == [UserChoice("voir-dire-q1", "q-accountant-1", Good), UserChoice("voir-dire-q2", "q-accused-1", Good)]
  {}

  lemma JuryJurorChallengesAnswers()
    ensures Records(JuryJurorChallenges.interactions, Good) == [UserChoice("challenge-choice", "challenge-1", Good)]
  {}

  /** The answers of the good walk through cross-examination, in script order. */
  lemma CrossExaminationGoodAnswers()
    ensures Records(Script(CrossExamination), Good)
         == [UserChoice("prep-choice-1", "approach-2", Good), UserChoice("q1-choice", "q1-1", Good),
             UserChoice("q2-choice", "q2-1", Good), UserChoice("q3-choice", "q3-1", Good),
             UserChoice("q4-choice", "q4-1", Good)]
  {
    CrossExaminationStageAnswers();
  }

  /** The same answers, stage by stage. */
  lemma CrossExaminationStageAnswers()
    ensures Records(Script(CrossExamination), Good)
         == [UserChoice("prep-choice-1", "approach-2", Good)] + [UserChoice("q1-choice", "q1-1", Good)]
          + [UserChoice("q2-choice", "q2-1", Good), UserChoice("q3-choice", "q3-1", Good)]
          + [UserChoice("q4-choice", "q4-1", Good)]
  {
    assert CrossExamination.stages == [CrossPreparation, CrossInitialQuestioning, CrossCoreExamination, CrossClosing];
    CrossPreparationAnswers();
    CrossInitialQuestioningAnswers();
    CrossCoreExaminationAnswers();
    CrossClosingAnswers();
    RecordsOfFour(CrossExamination, Good, Records(CrossPreparation.interactions, Good), Records(CrossInitialQuestioning.interactions, Good), Records(CrossCoreExamination.interactions, Good), Records(CrossClosing.interactions, Good));
  }

  /** The answers of the good walk through opening-statement, in script order. */
  lemma OpeningStatementGoodAnswers()
    ensures Records(Script(OpeningStatement), Good)
         == [UserChoice("prep-choice", "structure-2", Good), UserChoice("intro-choice", "intro-2", Good),
             UserChoice("evidence-choice", "evidence-3", Good), UserChoice("closing-choice", "closing-2", Good)]
  {
    OpeningStatementStageAnswers();
  }

  /** The same answers, stage by stage. */
  lemma OpeningStatementStageAnswers()
    ensures Records(Script(OpeningStatement), Good)
         == [UserChoice("prep-choice", "structure-2", Good)]
          + [UserChoice("intro-choice", "intro-2", Good), UserChoice("evidence-choice", "evidence-3", Good)]
          + [UserChoice("closing-choice", "closing-2", Good)]
  {
    assert OpeningStatement.stages == [OpeningPreparation, OpeningStatementDelivery, OpeningConclusion];
    OpeningPreparationAnswers();
    OpeningStatementDeliveryAnswers();
    OpeningConclusionAnswers();
    RecordsOfThree(OpeningStatement, Good, Records(OpeningPreparation.interactions, Good), Records(OpeningStatementDelivery.interactions, Good), Records(OpeningConclusion.interactions, Good));
  }

  /** The answers of the good walk through jury-selection, in script order. */
  lemma JurySelectionGoodAnswers()
    ensures Records(Script(JurySelection), Good)
         == [UserChoice("js-prep-choice", "juror-concern-1", Good), UserChoice("voir-dire-q1", "q-accountant-1", Good),
             UserChoice("voir-dire-q2", "q-accused-1", Good), UserChoice("challenge-choice", "challenge-1", Good)]
  {
    JurySelectionStageAnswers();
  }

  /** The same answers, stage by stage. */
  lemma JurySelectionStageAnswers()
    ensures Records(Script(JurySelection), Good)
         == [UserChoice("js-prep-choice", "juror-concern-1", Good)]
          + [UserChoice("voir-dire-q1", "q-accountant-1", Good), UserChoice("voir-dire-q2", "q-accused-1", Good)]
          + [UserChoice("challenge-choice", "challenge-1", Good)]
  {
    assert JurySelection.stages == [JuryPreparation, JuryVoirDireQuestioning, JuryJurorChallenges];
    JuryPreparationAnswers();
    JuryVoirDireQuestioningAnswers();
    JuryJurorChallengesAnswers();
    RecordsOfThree(JurySelection, Good, Records(JuryPreparation.interactions, Good), Records(JuryVoirDireQuestioning.interactions, Good), Records(JuryJurorChallenges.interactions, Good));
  }

  /** cross-examination as written: always picking the good option reaches
      the results view with five good answers, score 100, tier Expert;
      always picking the bad one reaches it with score 0, tier Developing. */
  lemma CrossExaminationRuns()
    ensures var r := Run(CrossExamination, Initial, Playthrough(CrossExamination, Good));
      && r.showResults && r.userChoices == Records(Script(CrossExamination), Good)
      && |r.userChoices| == 5 && Score(r.userChoices) == 100 && TierOf(Score(r.userChoices)) == Expert
    ensures var r := Run(CrossExamination, Initial, Playthrough(CrossExamination, Bad));
      && r.showResults && |r.userChoices| == 5
      && Score(r.userChoices) == 0 && TierOf(Score(r.userChoices)) == Developing
  {
    var sc := CrossExamination;
    CrossExaminationWellFormed();
    WellFormedIsWalkable(sc);
    FixedPlaythrough(sc, Good);
    AsWrittenPlaythrough(sc, Good);
    FixedPlaythrough(sc, Bad);
    AsWrittenPlaythrough(sc, Bad);
    CrossExaminationGoodAnswers();
    RatedRunScore(Run(sc, Initial, Playthrough(sc, Good)).userChoices, Good);
    RatedRunScore(Run(sc, Initial, Playthrough(sc, Bad)).userChoices, Bad);
  }

  /** opening-statement as written: always picking the good option reaches
      the results view with four good answers, score 100, tier Expert. */
  lemma OpeningStatementRuns()
    ensures var r := Run(OpeningStatement, Initial, Playthrough(OpeningStatement, Good));
      && r.showResults && r.userChoices == Records(Script(OpeningStatement), Good)
      && |r.userChoices| == 4 && Score(r.userChoices) == 100 && TierOf(Score(r.userChoices)) == Expert
  {
    var sc := OpeningStatement;
    OpeningStatementWellFormed();
    WellFormedIsWalkable(sc);
    FixedPlaythrough(sc, Good);
    AsWrittenPlaythrough(sc, Good);
    OpeningStatementGoodAnswers();
    RatedRunScore(Run(sc, Initial, Playthrough(sc, Good)).userChoices, Good);
  }

  /** jury-selection ends on a choice. As written, no sequence of actions
      from the start ever opens its results view; the good walk ends
      complete, with its four good answers, but without results. As
      intended, the same walk opens the results with score 100. */
  lemma JurySelectionRuns()
    ensures forall acts :: !Run(JurySelection, Initial, acts).showResults
    ensures var w := Playthrough(JurySelection, Good);
      && Run(JurySelection, Initial, w).isComplete
      && Run(JurySelection, Initial, w).userChoices == Records(Script(JurySelection), Good)
      && RunFixed(JurySelection, Initial, w).showResults
      && |RunFixed(JurySelection, Initial, w).userChoices| == 4
      && Score(RunFixed(JurySelection, Initial, w).userChoices) == 100
  {
    var sc := JurySelection;
    JurySelectionWellFormed();
    WellFormedIsWalkable(sc);
    RestartStartsOver(sc, Initial);
    forall acts ensures !Run(sc, Initial, acts).showResults {
      NeverShowsResults(sc, Initial, acts);
    }
    var w := Playthrough(sc, Good);
    FixedPlaythrough(sc, Good);
    AsWrittenPlaythrough(sc, Good);
    PlaythroughRoom(sc);
    RunFixedKeepsCoherent(sc, Initial, w);
    JurySelectionGoodAnswers();
    RatedRunScore(RunFixed(sc, Initial, w).userChoices, Good);
  }
}

=== FILE: engine_runs.dfy ===
/** Whole runs of the engine: a user who, at every choice, picks the first
    option with a given rating and otherwise presses the primary button.
    Under the intended wiring such a run reaches the results view having
    recorded one answer per choice of the script; under the wiring as
    written this holds exactly for scripts that do not end on a choice. */
module EngineRuns {
  import opened Wrappers
  import opened SimulationData
  import opened SimulationEngine

  /** The answer recorded for x when the user picks its first option rated v. */
  function Answer(x: SimulationInteraction, v: Rating): seq<UserChoice> {
    if x.kind == Choice && x.options.Some? && FirstRated(x.options.value, v).Some? then
      [UserChoice(x.id, x.options.value[FirstRated(x.options.value, v).value].id, v)]
    else
      []
  }

  /** The answers recorded along xs. */
  function Records(xs: seq<SimulationInteraction>, v: Rating): seq<UserChoice> {
    if |xs| == 0 then [] else Answer(xs[0], v) + Records(xs[1..], v)
  }

  lemma {:induction false} RecordsAppend(a: seq<SimulationInteraction>, b: seq<SimulationInteraction>, v: Rating)
    ensures Records(a + b, v) == Records(a, v) + Records(b, v)
    decreases |a|
  {
    if |a| == 0 {
      assert a + b == b;
    } else {
      var t := a[1..];
      assert a + b == [a[0]] + (t + b);
      RecordsAppend(t, b, v);
      RecordsCons(a[0], t + b, v);
      AppendAssociates(Answer(a[0], v), Records(t, v), Records(b, v));
    }
  }

  lemma RecordsCons(x: SimulationInteraction, xs: seq<SimulationInteraction>, v: Rating)
    ensures Records([x] + xs, v) == Answer(x, v) + Records(xs, v)
  {
    assert ([x] + xs)[1..] == xs;
  }

  /** The records of a three-stage script are its stages' records, in order. */
  lemma RecordsOfThree(sc: SimulationScenario, v: Rating, ra: seq<UserChoice>, rb: seq<UserChoice>, rc: seq<UserChoice>)
    requires |sc.stages| == 3
    requires Records(sc.stages[0].interactions, v) == ra
    requires Records(sc.stages[1].interactions, v) == rb
    requires Records(sc.stages[2].interactions, v) == rc
    ensures Records(Script(sc), v) == ra + rb + rc
  {
    ScriptOfThree(sc);
    var a, b, c := sc.stages[0].interactions, sc.stages[1].interactions, sc.stages[2].interactions;
    RecordsAppend(a, b, v);
    RecordsAppend(a + b, c, v);
  }

  /** The records of a four-stage script are its stages' records, in order. */
  lemma RecordsOfFour(sc: SimulationScenario, v: Rating, ra: seq<UserChoice>, rb: seq<UserChoice>, rc: seq<UserChoice>, rd: seq<UserChoice>)
    requires |sc.stages| == 4
    requires Records(sc.stages[0].interactions, v) == ra
    requires Records(sc.stages[1].interactions, v) == rb
    requires Records(sc.stages[2].interactions, v) == rc
    requires Records(sc.stages[3].interactions, v) == rd
    ensures Records(Script(sc), v) == ra + rb + rc + rd
  {
    ScriptOfFour(sc);
    var a, b, c, d := sc.stages[0].interactions, sc.stages[1].interactions, sc.stages[2].interactions, sc.stages[3].interactions;
    RecordsAppend(a, b, v);
    RecordsAppend(a + b, c, v);
    RecordsAppend(a + b + c, d, v);
  }

  /** Every choice of xs offers an option rated v. */
  predicate ChoicesOffer(xs: seq<SimulationInteraction>, v: Rating) {
    forall k :: 0 <= k < |xs| && xs[k].kind == Choice ==>
      xs[k].options.Some? && FirstRated(xs[k].options.value, v).Some?
  }

  /** What every stage offers, the script offers. */
  lemma {:induction false} ScriptOffers(stages: seq<SimulationStage>, m: nat, v: Rating)
    requires m <= |stages|
    requires forall k :: 0 <= k < |stages| ==> StageOffers(stages[k], v)
    ensures ChoicesOffer(Flatten(stages, m), v)
  {
    if m > 0 {
      ScriptOffers(stages, m - 1, v);
      var a: seq<SimulationInteraction> := Flatten(stages, m - 1);
      var b: seq<SimulationInteraction> := stages[m - 1].interactions;
      assert StageOffers(stages[m - 1], v);
      forall k | 0 <= k < |a + b| && (a + b)[k].kind == Choice
        ensures (a + b)[k].options.Some? && FirstRated((a + b)[k].options.value, v).Some?
      {
        if k < |a| {
          assert (a + b)[k] == a[k];
        } else {
          assert (a + b)[k] == b[k - |a|];
        }
      }
    }
  }

  /** When every choice offers v, one answer per choice, each rated v. */
  lemma {:induction false} RecordsCount(xs: seq<SimulationInteraction>, v: Rating)
    requires ChoicesOffer(xs, v)
    ensures |Records(xs, v)| == CountChoices(xs)
    ensures CountRated(Records(xs, v), v) == |Records(xs, v)|
  {
    if |xs| > 0 {
      assert ChoicesOffer(xs[1..], v) by {
        forall k | 0 <= k < |xs[1..]| && xs[1..][k].kind == Choice
          ensures xs[1..][k].options.Some? && FirstRated(xs[1..][k].options.value, v).Some?
        {
          assert xs[1..][k] == xs[k + 1];
        }
      }
      RecordsCount(xs[1..], v);
      CountRatedAppend(Answer(xs[0], v), Records(xs[1..], v), v);
    }
  }

  lemma {:induction false} CountRatedAppend(a: seq<UserChoice>, b: seq<UserChoice>, v: Rating)
    ensures CountRated(a + b, v) == CountRated(a, v) + CountRated(b, v)
    decreases |b|
  {
    if |b| == 0 {
      assert a + b == a;
    } else {
      assert (a + b)[..|a + b| - 1] == a + b[..|b| - 1];
      CountRatedAppend(a, b[..|b| - 1], v);
    }
  }

  // ---------------------------------------------------------------------
  // The walk

  /** The user's next action: the first option rated v on an open choice,
      the primary button otherwise. */
  function Move(sc: SimulationScenario, st: EngineState, v: Rating): Action {
    if !st.isComplete && OnChoice(sc, st) && CurrentInteraction(sc, st).value.options.Some?
       && FirstRated(CurrentInteraction(sc, st).value.options.value, v).Some?
    then Pick(FirstRated(CurrentInteraction(sc, st).value.options.value, v).value)
    else Press
  }

  /** The interactions still ahead of the cursor, the current one included;
      none once the run is complete. */
  function Pending(sc: SimulationScenario, st: EngineState): seq<SimulationInteraction>
    requires st.stageIndex <= |sc.stages|
  {
    if st.isComplete || Completed(sc, st) > |Script(sc)| then [] else Script(sc)[Completed(sc, st)..]
  }

  /** Steps left before the results view. */
  function Remaining(sc: SimulationScenario, st: EngineState): nat
    requires st.stageIndex <= |sc.stages|
  {
    if st.showResults then 0 else 1 + |Pending(sc, st)|
  }

  /** On an open interaction, the move answers it (if it is a choice) and
      advances once. */
  lemma MoveAnswers(sc: SimulationScenario, st: EngineState, v: Rating)
    requires Walkable(sc) && EveryChoiceOffers(sc, v) && ValidCursor(sc, st)
    requires !st.isComplete && !st.showResults
    ensures var r := ApplyFixed(sc, st, Move(sc, st, v));
      && r.userChoices == st.userChoices + Answer(CurrentInteraction(sc, st).value, v)
      && r.(userChoices := st.userChoices) == Advance(sc, st)
  {
    var x := CurrentInteraction(sc, st).value;
    assert StageOffers(sc.stages[st.stageIndex], v);
    if x.kind == Choice {
      assert x.options.Some? && FirstRated(x.options.value, v).Some?;
    }
  }

  /** Advancing from an open interaction consumes it from the pending part
      of the script. */
  lemma PendingAdvance(sc: SimulationScenario, st: EngineState, v: Rating)
    requires Walkable(sc) && ValidCursor(sc, st) && !st.isComplete
    ensures Records(Pending(sc, st), v)
         == Answer(CurrentInteraction(sc, st).value, v) + Records(Pending(sc, Advance(sc, st)), v)
    ensures |Pending(sc, Advance(sc, st))| < |Pending(sc, st)|
  {
    var c, xs := Completed(sc, st), Script(sc);
    CurrentIsScriptAt(sc, st);
    AdvanceWalksScript(sc, st);
    assert xs[c..] == [xs[c]] + xs[c + 1..];
    assert Records(xs[c..], v) == Answer(xs[c], v) + Records(xs[c + 1..], v);
    if AtEnd(sc, st) {
      assert xs[c + 1..] == [];
    }
  }

  /** One step of the walk under the intended wiring: the state stays
      coherent, one fewer step remains, and the history grows by the answer
      to the current interaction. */
  lemma Step(sc: SimulationScenario, st: EngineState, v: Rating)
    requires Walkable(sc) && EveryChoiceOffers(sc, v) && Coherent(sc, st) && !st.showResults
    ensures var r := ApplyFixed(sc, st, Move(sc, st, v));
      && Coherent(sc, r)
      && Remaining(sc, r) < Remaining(sc, st)
      && st.userChoices + Records(Pending(sc, st), v) == r.userChoices + Records(Pending(sc, r), v)
  {
    var r := ApplyFixed(sc, st, Move(sc, st, v));
    ApplyFixedKeepsCoherent(sc, st, Move(sc, st, v));
    if st.isComplete {
      StepComplete(sc, st, v);
    } else {
      StepOpen(sc, st, v);
    }
  }

  lemma StepComplete(sc: SimulationScenario, st: EngineState, v: Rating)
    requires st.isComplete && !st.showResults
    ensures ApplyFixed(sc, st, Move(sc, st, v)) == st.(showResults := true)
  {
  }

  lemma StepOpen(sc: SimulationScenario, st: EngineState, v: Rating)
    requires Walkable(sc) && EveryChoiceOffers(sc, v) && ValidCursor(sc, st) && !st.isComplete && !st.showResults
    ensures var r := ApplyFixed(sc, st, Move(sc, st, v));
      && |Pending(sc, r)| < |Pending(sc, st)|
      && st.userChoices + Records(Pending(sc, st), v) == r.userChoices + Records(Pending(sc, r), v)
  {
    var r := ApplyFixed(sc, st, Move(sc, st, v));
    var a := Advance(sc, st);
    var x := Answer(CurrentInteraction(sc, st).value, v);
    MoveAnswers(sc, st, v);
    PendingAdvance(sc, st, v);
    assert r == a.(userChoices := st.userChoices + x);
    assert Pending(sc, r) == Pending(sc, a);
    AppendAssociates(st.userChoices, x, Records(Pending(sc, a), v));
  }

  /** The walk: Move, at most n times, until the results view opens. */
  function Walk(sc: SimulationScenario, st: EngineState, v: Rating, n: nat): seq<Action>
    decreases n
  {
    if n == 0 || st.showResults then []
    else [Move(sc, st, v)] + Walk(sc, ApplyFixed(sc, st, Move(sc, st, v)), v, n - 1)
  }

  /** The walk from the start, with room for every step: one per
      interaction and one to open the results. */
  function Playthrough(sc: SimulationScenario, v: Rating): seq<Action> {
    Walk(sc, Initial, v, TotalInteractions(sc) + 1)
  }

  /** One step of the walk under the intended wiring. */
  lemma WalkUnfold(sc: SimulationScenario, st: EngineState, v: Rating, n: nat)
    requires n > 0 && !st.showResults
    ensures var a := Move(sc, st, v);
      RunFixed(sc, st, Walk(sc, st, v, n)) == RunFixed(sc, ApplyFixed(sc, st, a), Walk(sc, ApplyFixed(sc, st, a), v, n - 1))
  {
    var a := Move(sc, st, v);
    var w := Walk(sc, st, v, n);
    assert w[0] == a && w[1..] == Walk(sc, ApplyFixed(sc, st, a), v, n - 1);
  }

  /** The scenario side of the walk: a script the cursor can walk, and an
      option rated v at every choice. */
  predicate Ready(sc: SimulationScenario, v: Rating) {
    Walkable(sc) && EveryChoiceOffers(sc, v)
  }

  /** The state side of the walk: coherent, results not yet shown, and at
      least n steps of room left. */
  predicate Live(sc: SimulationScenario, st: EngineState, n: nat) {
    Coherent(sc, st) && !st.showResults && n >= Remaining(sc, st)
  }

  /** The walk of n steps from st, run under the intended wiring, opens the
      results having added exactly the answers to the choices still ahead. */
  predicate Reached(sc: SimulationScenario, st: EngineState, v: Rating, n: nat)
    requires st.stageIndex <= |sc.stages|
  {
    var r := RunFixed(sc, st, Walk(sc, st, v, n));
    r.showResults && r.userChoices == st.userChoices + Records(Pending(sc, st), v)
  }

  /** Under the intended wiring the walk reaches the results view, having
      recorded exactly the answers to the choices still ahead. The proof
      follows the walk step by step; `goal` is the claim, held as one fact
      so that the invariant does not unfold it. */
  lemma WalkReachesResults(sc: SimulationScenario, st: EngineState, v: Rating, n: nat)
    requires Ready(sc, v) && Coherent(sc, st) && n >= Remaining(sc, st)
    ensures var r := RunFixed(sc, st, Walk(sc, st, v, n));
      && r.showResults
      && r.userChoices == st.userChoices + Records(Pending(sc, st), v)
  {
    var goal := Reached(sc, st, v, n);
    var cur, k := st, n;
    while !cur.showResults
      invariant Coherent(sc, cur) && k >= Remaining(sc, cur)
      invariant Reached(sc, cur, v, k) ==> goal
      decreases k
    {
      ReachStep(sc, cur, v, k);
      cur, k := ApplyFixed(sc, cur, Move(sc, cur, v)), k - 1;
    }
    assert Pending(sc, cur) == [];
    assert Reached(sc, cur, v, k);
  }

  /** One step of that walk: the next state is coherent with one step less
      of room, and the walk from it reaches the results only if the walk from
      here does, because both end in the same state and the answers still to
      come shift into the history. */
  lemma ReachStep(sc: SimulationScenario, st: EngineState, v: Rating, n: nat)
    requires Ready(sc, v) && Live(sc, st, n)
    ensures var next := ApplyFixed(sc, st, Move(sc, st, v));
      && n > 0 && Coherent(sc, next) && n - 1 >= Remaining(sc, next)
      && (Reached(sc, next, v, n - 1) ==> Reached(sc, st, v, n))
  {
    Step(sc, st, v);
    WalkUnfold(sc, st, v, n);
  }

  /** Under the intended wiring the walk presses exactly once after the
      run completes, and then stops. As above, the loop follows the walk
      and `goal` holds the claim as one fact. */
  lemma WalkEndsWithFinalPress(sc: SimulationScenario, st: EngineState, v: Rating, n: nat)
    requires Ready(sc, v) && Live(sc, st, n)
    ensures EndsWithFinalPress(sc, st, Walk(sc, st, v, n))
  {
    var goal := EndsWithFinalPress(sc, st, Walk(sc, st, v, n));
    var cur, k := st, n;
    while !cur.isComplete
      invariant Live(sc, cur, k)
      invariant EndsWithFinalPress(sc, cur, Walk(sc, cur, v, k)) ==> goal
      decreases k
    {
      PressStep(sc, cur, v, k);
      cur, k := ApplyFixed(sc, cur, Move(sc, cur, v)), k - 1;
    }
    PressAtEnd(sc, cur, v, k);
  }

  /** Once the run is complete, what is left of the walk is the one press
      that opens the results. */
  lemma PressAtEnd(sc: SimulationScenario, st: EngineState, v: Rating, n: nat)
    requires st.isComplete && !st.showResults && n > 0
    ensures Walk(sc, st, v, n) == [Press]
    ensures EndsWithFinalPress(sc, st, Walk(sc, st, v, n))
  {
    StepComplete(sc, st, v);
    assert Walk(sc, ApplyFixed(sc, st, Move(sc, st, v)), v, n - 1) == [];
  }

  /** One step of that walk before completion: the next state is live with
      one step less of room, and the walk from here ends with the final
      press if the walk from there does. */
  lemma PressStep(sc: SimulationScenario, st: EngineState, v: Rating, n: nat)
    requires Ready(sc, v) && Live(sc, st, n) && !st.isComplete
    ensures n > 0 && Live(sc, ApplyFixed(sc, st, Move(sc, st, v)), n - 1)
    ensures EndsWithFinalPress(sc, ApplyFixed(sc, st, Move(sc, st, v)), Walk(sc, ApplyFixed(sc, st, Move(sc, st, v)), v, n - 1)) ==>
      EndsWithFinalPress(sc, st, Walk(sc, st, v, n))
  {
    var w := Walk(sc, st, v, n);
    Step(sc, st, v);
    assert w[0] == Move(sc, st, v) && w[1..] == Walk(sc, ApplyFixed(sc, st, Move(sc, st, v)), v, n - 1);
  }

  lemma PlaythroughRoom(sc: SimulationScenario)
    requires Walkable(sc)
    ensures Coherent(sc, Initial) && !Initial.showResults
    ensures Pending(sc, Initial) == Script(sc)
    ensures TotalInteractions(sc) + 1 >= Remaining(sc, Initial)
  {
    RestartStartsOver(sc, Initial);
    assert Script(sc)[0..] == Script(sc);
  }

  /** When every choice of the scenario offers v, the script's records are
      one per choice, each rated v. */
  lemma ScriptRecords(sc: SimulationScenario, v: Rating)
    requires EveryChoiceOffers(sc, v)
    ensures |Records(Script(sc), v)| == CountChoices(Script(sc))
    ensures CountRated(Records(Script(sc), v), v) == |Records(Script(sc), v)|
  {
    ScriptOffers(sc.stages, |sc.stages|, v);
    RecordsCount(Script(sc), v);
  }

  /** From the start: the intended run records one answer rated v per
      choice of the script, in script order, and opens the results. */
  lemma FixedPlaythrough(sc: SimulationScenario, v: Rating)
    requires Walkable(sc) && EveryChoiceOffers(sc, v)
    ensures var r := RunFixed(sc, Initial, Playthrough(sc, v));
      && r.showResults
      && r.userChoices == Records(Script(sc), v)
      && |r.userChoices| == CountChoices(Script(sc))
      && CountRated(r.userChoices, v) == |r.userChoices|
  {
    PlaythroughRoom(sc);
    WalkReachesResults(sc, Initial, v, TotalInteractions(sc) + 1);
    ScriptRecords(sc, v);
  }

  /** The score of an all-good run is 100 and of an all-bad run 0. */
  lemma RatedRunScore(cs: seq<UserChoice>, v: Rating)
    requires |cs| > 0 && CountRated(cs, v) == |cs|
    ensures v == Good ==> Score(cs) == 100 && TierOf(Score(cs)) == Expert
    ensures v == Bad ==> Score(cs) == 0 && TierOf(Score(cs)) == Developing
  {
    ScoreExtremes(cs);
  }

  /** As written, the same run from the start agrees with the intended one
      when the script does not end on a choice, and otherwise ends in the
      same state without the results view. */
  lemma AsWrittenPlaythrough(sc: SimulationScenario, v: Rating)
    requires Walkable(sc) && EveryChoiceOffers(sc, v)
    ensures var w := Playthrough(sc, v);
      && (!EndsOnChoice(sc) ==> Run(sc, Initial, w) == RunFixed(sc, Initial, w))
      && (EndsOnChoice(sc) ==> Run(sc, Initial, w) == RunFixed(sc, Initial, w).(showResults := false))
  {
    PlaythroughRoom(sc);
    if EndsOnChoice(sc) {
      WalkEndsWithFinalPress(sc, Initial, v, TotalInteractions(sc) + 1);
      FinalPressStuck(sc, Initial, Playthrough(sc, v));
    } else {
      RunAgrees(sc, Initial, Playthrough(sc, v));
    }
  }
}

=== FILE: simulation_data.dfy ===
/** The shape of the scenario catalogue (src/data/simulationData.ts): a
    scenario is an ordered list of stages, a stage an ordered list of
    interactions, and a `choice` interaction carries rated options.

    The module also defines the script of a scenario, the concatenation of
    its stages' interactions in order, and the position of a cursor
    (stage index, interaction index) in that script; the engine's cursor
    arithmetic is proved against these. */
module SimulationData {
  import opened Wrappers

  datatype Difficulty = Easy | Medium | Hard

  /** The `type` tag of an interaction. */
  datatype InteractionType = Prompt | Choice | Feedback

  /** The `value` of an option: the only signal the score is computed from. */
  datatype Rating = Good | Neutral | Bad

  /** An option of a choice. Its wording and its `consequence` text are
      prose the engine only displays; the model keeps the id and rating. */
  datatype SimulationOption = SimulationOption(id: string, value: Rating)

  datatype FeedbackText = FeedbackText(positive: string, negative: string)

  /** One beat of the script. As in the source, `options` and `feedback` are
      optional fields of every interaction whatever its type; which of them
      a well-formed interaction carries is stated by InteractionWellFormed.
      The `content` prose is not modelled. */
  datatype SimulationInteraction = SimulationInteraction(
    id: string,
    kind: InteractionType,
    speaker: Option<string>,
    role: Option<string>,
    options: Option<seq<SimulationOption>>,
    feedback: Option<FeedbackText>)

  /** A stage; `outcome` is the text the results view shows when the run
      ends in this stage. The `description` prose is not modelled. */
  datatype SimulationStage = SimulationStage(
    id: string,
    title: string,
    interactions: seq<SimulationInteraction>,
    outcome: Option<string>)

  /** A scenario. The `icon` (a React component), the `description`,
      `objectives` and `context` prose are not modelled. */
  datatype SimulationScenario = SimulationScenario(
    id: string,
    title: string,
    difficulty: Difficulty,
    duration: string,
    participants: string,
    stages: seq<SimulationStage>)

  // ---------------------------------------------------------------------
  // Well-formedness

  predicate DistinctOptionIds(opts: seq<SimulationOption>) {
    forall i, j :: 0 <= i < j < |opts| ==> opts[i].id != opts[j].id
  }

  /** A choice carries a non-empty list of options with distinct ids; a
      feedback beat carries both its positive and its negative text. */
  predicate InteractionWellFormed(x: SimulationInteraction) {
    && (x.kind == Choice ==>
          x.options.Some? && |x.options.value| > 0 && DistinctOptionIds(x.options.value))
    && (x.kind == Feedback ==> x.feedback.Some?)
  }

  /** What the engine's cursor arithmetic relies on: at least one stage, and
      at least one interaction in every stage. */
  predicate Walkable(sc: SimulationScenario) {
    && |sc.stages| > 0
    && forall k :: 0 <= k < |sc.stages| ==> |sc.stages[k].interactions| > 0
  }

  predicate DistinctStageIds(stages: seq<SimulationStage>) {
    forall i, j :: 0 <= i < j < |stages| ==> stages[i].id != stages[j].id
  }

  predicate DistinctInteractionIds(xs: seq<SimulationInteraction>) {
    forall i, j :: 0 <= i < j < |xs| ==> xs[i].id != xs[j].id
  }

  /** No string occurs twice in ids. */
  predicate DistinctStrings(ids: seq<string>) {
    forall i, j :: 0 <= i < j < |ids| ==> ids[i] != ids[j]
  }

  /** Only the final stage carries an outcome, and it does carry one: the
      results view shows the outcome of the stage the cursor rests on. */
  predicate OutcomeOnlyAtEnd(stages: seq<SimulationStage>) {
    && |stages| > 0
    && stages[|stages| - 1].outcome.Some?
    && forall k :: 0 <= k < |stages| - 1 ==> stages[k].outcome.None?
  }

  /** A stage has at least one interaction and each is well formed. */
  predicate StageWellFormed(st: SimulationStage) {
    && |st.interactions| > 0
    && forall i :: 0 <= i < |st.interactions| ==> InteractionWellFormed(st.interactions[i])
  }

  predicate WellFormed(sc: SimulationScenario) {
    && |sc.stages| > 0
    && (forall k :: 0 <= k < |sc.stages| ==> StageWellFormed(sc.stages[k]))
    && DistinctStageIds(sc.stages)
    && DistinctInteractionIds(Script(sc))
    && OutcomeOnlyAtEnd(sc.stages)
  }

  /** The ids of xs, in order. */
  function InteractionIds(xs: seq<SimulationInteraction>): (r: seq<string>)
    ensures |r| == |xs| && forall k :: 0 <= k < |xs| ==> r[k] == xs[k].id
  {
    if |xs| == 0 then [] else [xs[0].id] + InteractionIds(xs[1..])
  }

  lemma {:induction false} InteractionIdsAppend(a: seq<SimulationInteraction>, b: seq<SimulationInteraction>)
    ensures InteractionIds(a + b) == InteractionIds(a) + InteractionIds(b)
  {
    var l, r := InteractionIds(a + b), InteractionIds(a) + InteractionIds(b);
    assert |l| == |r|;
    forall k | 0 <= k < |l| ensures l[k] == r[k] {
      if k < |a| {
        assert (a + b)[k] == a[k];
      } else {
        assert (a + b)[k] == b[k - |a|];
      }
    }
  }

  lemma DistinctIdsFromList(xs: seq<SimulationInteraction>)
    requires DistinctStrings(InteractionIds(xs))
    ensures DistinctInteractionIds(xs)
  {
    var ids := InteractionIds(xs);
    forall i, j | 0 <= i < j < |xs| ensures xs[i].id != xs[j].id {
      assert ids[i] != ids[j];
    }
  }

  // ---------------------------------------------------------------------
  // The script and cursor positions

  /** Number of interactions in the first k stages (a left fold, like the
      source's `reduce` over stage lengths). */
  function CountBefore(stages: seq<SimulationStage>, k: nat): nat
    requires k <= |stages|
  {
    if k == 0 then 0 else CountBefore(stages, k - 1) + |stages[k - 1].interactions|
  }

  /** The interactions of the first k stages, in order. */
  function Flatten(stages: seq<SimulationStage>, k: nat): (r: seq<SimulationInteraction>)
    requires k <= |stages|
    ensures |r| == CountBefore(stages, k)
  {
    if k == 0 then [] else Flatten(stages, k - 1) + stages[k - 1].interactions
  }

  function Script(sc: SimulationScenario): seq<SimulationInteraction> {
    Flatten(sc.stages, |sc.stages|)
  }

  function TotalInteractions(sc: SimulationScenario): nat {
    CountBefore(sc.stages, |sc.stages|)
  }

  /** The number of interactions before cursor (s, i): the interactions of
      the earlier stages plus i. */
  function Position(stages: seq<SimulationStage>, s: nat, i: nat): nat
    requires s <= |stages|
  {
    CountBefore(stages, s) + i
  }

  lemma {:induction false} CountBeforeMonotone(stages: seq<SimulationStage>, k: nat, m: nat)
    requires k <= m <= |stages|
    ensures CountBefore(stages, k) <= CountBefore(stages, m)
    ensures k < m ==> CountBefore(stages, k) + |stages[k].interactions| <= CountBefore(stages, m)
    decreases m
  {
    if k < m {
      CountBeforeMonotone(stages, k, m - 1);
    }
  }

  /** The ids of the first k stages' interactions, stage by stage. */
  function StageIds(stages: seq<SimulationStage>, k: nat): seq<string>
    requires k <= |stages|
  {
    if k == 0 then [] else StageIds(stages, k - 1) + InteractionIds(stages[k - 1].interactions)
  }

  lemma {:induction false} StageIdsAreScriptIds(stages: seq<SimulationStage>, k: nat)
    requires k <= |stages|
    ensures InteractionIds(Flatten(stages, k)) == StageIds(stages, k)
  {
    if k > 0 {
      StageIdsAreScriptIds(stages, k - 1);
      assert Flatten(stages, k) == Flatten(stages, k - 1) + stages[k - 1].interactions;
      InteractionIdsAppend(Flatten(stages, k - 1), stages[k - 1].interactions);
    }
  }

  lemma {:induction false} FlattenPrefix(stages: seq<SimulationStage>, k: nat, m: nat)
    requires k <= m <= |stages|
    ensures Flatten(stages, k) <= Flatten(stages, m)
    decreases m
  {
    if k < m {
      FlattenPrefix(stages, k, m - 1);
    }
  }

  /** Cursor (s, i) addresses the interaction at its position in the
      script: walking the stages in order and walking the script are the
      same walk. */
  lemma ScriptAt(stages: seq<SimulationStage>, s: nat, i: nat)
    requires s < |stages| && i < |stages[s].interactions|
    ensures Position(stages, s, i) < CountBefore(stages, |stages|)
    ensures Flatten(stages, |stages|)[Position(stages, s, i)] == stages[s].interactions[i]
  {
    FlattenPrefix(stages, s + 1, |stages|);
    CountBeforeMonotone(stages, s + 1, |stages|);
    assert Flatten(stages, s + 1) == Flatten(stages, s) + stages[s].interactions;
  }

  lemma ScriptOfThree(sc: SimulationScenario)
    requires |sc.stages| == 3
    ensures Script(sc) == sc.stages[0].interactions + sc.stages[1].interactions + sc.stages[2].interactions
  {
    assert Flatten(sc.stages, 1) == sc.stages[0].interactions;
    assert Flatten(sc.stages, 2) == Flatten(sc.stages, 1) + sc.stages[1].interactions;
  }

  lemma ScriptOfFour(sc: SimulationScenario)
    requires |sc.stages| == 4
    ensures Script(sc) == sc.stages[0].interactions + sc.stages[1].interactions
                          + sc.stages[2].interactions + sc.stages[3].interactions
  {
    assert Flatten(sc.stages, 1) == sc.stages[0].interactions;
    assert Flatten(sc.stages, 2) == Flatten(sc.stages, 1) + sc.stages[1].interactions;
    assert Flatten(sc.stages, 3) == Flatten(sc.stages, 2) + sc.stages[2].interactions;
  }

  /** Two cursors into non-empty stages at the same position are the same
      cursor: the position identifies the interaction. */
  lemma PositionInjective(stages: seq<SimulationStage>, s1: nat, i1: nat, s2: nat, i2: nat)
    requires s1 < |stages| && i1 < |stages[s1].interactions|
    requires s2 < |stages| && i2 < |stages[s2].interactions|
    requires Position(stages, s1, i1) == Position(stages, s2, i2)
    ensures s1 == s2 && i1 == i2
  {
    if s1 < s2 {
      CountBeforeMonotone(stages, s1, s2);
    } else if s2 < s1 {
      CountBeforeMonotone(stages, s2, s1);
    }
  }

  // ---------------------------------------------------------------------
  // Choices in a script

  /** The number of choice interactions in xs. */
  function CountChoices(xs: seq<SimulationInteraction>): nat {
    if |xs| == 0 then 0
    else (if xs[0].kind == Choice then 1 else 0) + CountChoices(xs[1..])
  }

  /** Index of the first option rated v, if any. */
  function FirstRated(opts: seq<SimulationOption>, v: Rating): (r: Option<nat>)
    ensures r.Some? ==> r.value < |opts| && opts[r.value].value == v
    ensures r.Some? ==> forall j :: 0 <= j < r.value ==> opts[j].value != v
    ensures r.None? ==> forall j :: 0 <= j < |opts| ==> opts[j].value != v
  {
    if |opts| == 0 then None
    else if opts[0].value == v then Some(0)
    else match FirstRated(opts[1..], v)
      case None => None
      case Some(j) => Some(j + 1)
  }

  /** Every choice of the stage offers an option rated v. */
  predicate StageOffers(st: SimulationStage, v: Rating) {
    forall i :: 0 <= i < |st.interactions| && st.interactions[i].kind == Choice ==>
      st.interactions[i].options.Some? && FirstRated(st.interactions[i].options.value, v).Some?
  }

  /** Every choice of the scenario offers an option rated v. */
  predicate EveryChoiceOffers(sc: SimulationScenario, v: Rating) {
    forall k :: 0 <= k < |sc.stages| ==> StageOffers(sc.stages[k], v)
  }

  /** The final interaction of the final stage is of type t. */
  predicate EndsOn(sc: SimulationScenario, t: InteractionType) {
    && |sc.stages| > 0
    && |sc.stages[|sc.stages| - 1].interactions| > 0
    && var last := sc.stages[|sc.stages| - 1].interactions;
       last[|last| - 1].kind == t
  }

  /** The final interaction of the final stage is a choice. */
  predicate EndsOnChoice(sc: SimulationScenario) {
    EndsOn(sc, Choice)
  }

  lemma WellFormedIsWalkable(sc: SimulationScenario)
    requires WellFormed(sc)
    ensures Walkable(sc)
  {
    forall k | 0 <= k < |sc.stages|
      ensures |sc.stages[k].interactions| > 0
    {
      assert StageWellFormed(sc.stages[k]);
    }
  }

  // ---------------------------------------------------------------------
  // Lookup

  /** `simulationScenarios.find(s => s.id === id)`: the first scenario
      carrying that id, or None. */
  function Find(scenarios: seq<SimulationScenario>, id: string): (r: Option<SimulationScenario>)
    ensures r.None? <==> forall k :: 0 <= k < |scenarios| ==> scenarios[k].id != id
    ensures r.Some? ==> exists k :: (0 <= k < |scenarios| && scenarios[k] == r.value && r.value.id == id
                                     && forall j :: 0 <= j < k ==> scenarios[j].id != id)
  {
    if |scenarios| == 0 then None
    else if scenarios[0].id == id then Some(scenarios[0])
    else
      var r := Find(scenarios[1..], id);
      assert r.Some? ==> exists k :: (1 <= k < |scenarios| && scenarios[k] == r.value && r.value.id == id
                                       && forall j :: 0 <= j < k ==> scenarios[j].id != id) by {
        if r.Some? {
          var k :| 0 <= k < |scenarios[1..]| && scenarios[1..][k] == r.value && r.value.id == id
            && forall j :: 0 <= j < k ==> scenarios[1..][j].id != id;
          assert scenarios[k + 1] == r.value;
          assert forall j :: 0 <= j < k + 1 ==> scenarios[j].id != id by {
            forall j | 0 <= j < k + 1 ensures scenarios[j].id != id {
              if j > 0 { assert scenarios[j] == scenarios[1..][j - 1]; }
            }
          }
        }
      }
      r
  }

  predicate DistinctScenarioIds(scenarios: seq<SimulationScenario>) {
    forall i, j :: 0 <= i < j < |scenarios| ==> scenarios[i].id != scenarios[j].id
  }

  /** With distinct ids, looking up a scenario's id returns that scenario. */
  lemma FindUnique(scenarios: seq<SimulationScenario>, k: nat)
    requires DistinctScenarioIds(scenarios) && k < |scenarios|
    ensures Find(scenarios, scenarios[k].id) == Some(scenarios[k])
  {
    var r := Find(scenarios, scenarios[k].id);
    var m :| 0 <= m < |scenarios| && scenarios[m] == r.value && r.value.id == scenarios[k].id
      && forall j :: 0 <= j < m ==> scenarios[j].id != scenarios[k].id;
    assert m == k;
  }
}

=== FILE: simulation_engine.dfy ===
/** The simulation engine (src/components/simulation/SimulationEngine.tsx):
    the state the component keeps while a user walks through a scenario,
    and each handler as a pure transition on that state.

    The cursor is the pair (stageIndex, interactionIndex). Choices are
    recorded in an append-only history; the score, tier, progress bar,
    feedback panels and results summary are derived from the state.
    Toasts, navigation, the confirm dialog and the sign-in modal are
    effects outside the state and are not modelled. */
module SimulationEngine {
  import opened Wrappers
  import opened SimulationData

  /** One answered choice (`UserChoice` in the source). */
  datatype UserChoice = UserChoice(interactionId: string, optionId: string, value: Rating)

  /** The component's state. `progress` is not stored here: it is a
      function of the cursor, see Progress. */
  datatype EngineState = EngineState(
    stageIndex: nat,
    interactionIndex: nat,
    userChoices: seq<UserChoice>,
    isComplete: bool,
    showResults: bool)

  /** The state the component mounts with. */
  const Initial: EngineState := EngineState(0, 0, [], false, false)

  // ---------------------------------------------------------------------
  // The cursor

  /** `currentStage?.interactions[currentInteractionIndex]`: undefined when
      either index is out of range. */
  function CurrentInteraction(sc: SimulationScenario, st: EngineState): Option<SimulationInteraction> {
    if ValidCursor(sc, st) then Some(sc.stages[st.stageIndex].interactions[st.interactionIndex]) else None
  }

  predicate ValidCursor(sc: SimulationScenario, st: EngineState) {
    st.stageIndex < |sc.stages| && st.interactionIndex < |sc.stages[st.stageIndex].interactions|
  }

  /** The cursor rests on the last interaction of the last stage. */
  predicate AtEnd(sc: SimulationScenario, st: EngineState) {
    && ValidCursor(sc, st)
    && st.stageIndex + 1 == |sc.stages|
    && st.interactionIndex + 1 == |sc.stages[st.stageIndex].interactions|
  }

  /** The current interaction exists and is a choice. */
  predicate OnChoice(sc: SimulationScenario, st: EngineState) {
    CurrentInteraction(sc, st).Some? && CurrentInteraction(sc, st).value.kind == Choice
  }

  /** The number of interactions before the cursor (`completedInteractions`). */
  function Completed(sc: SimulationScenario, st: EngineState): nat
    requires st.stageIndex <= |sc.stages|
  {
    Position(sc.stages, st.stageIndex, st.interactionIndex)
  }

  /** The interaction under a valid cursor is the one at its position in the
      script. */
  lemma CurrentIsScriptAt(sc: SimulationScenario, st: EngineState)
    requires ValidCursor(sc, st)
    ensures Completed(sc, st) < TotalInteractions(sc)
    ensures CurrentInteraction(sc, st) == Some(Script(sc)[Completed(sc, st)])
  {
    ScriptAt(sc.stages, st.stageIndex, st.interactionIndex);
  }

  // ---------------------------------------------------------------------
  // Handlers

  /** `advanceSimulation`: the next interaction of the stage, else the first
      interaction of the next stage, else completion. Without a current
      stage it does nothing. */
  function Advance(sc: SimulationScenario, st: EngineState): (r: EngineState)
    ensures r.userChoices == st.userChoices && r.showResults == st.showResults
    ensures st.isComplete ==> r.isComplete
    ensures r.isComplete && !st.isComplete ==>
      r.stageIndex == st.stageIndex && r.interactionIndex == st.interactionIndex
  {
    if st.stageIndex >= |sc.stages| then st
    else if st.interactionIndex + 1 < |sc.stages[st.stageIndex].interactions| then
      st.(interactionIndex := st.interactionIndex + 1)
    else if st.stageIndex + 1 < |sc.stages| then
      st.(stageIndex := st.stageIndex + 1, interactionIndex := 0)
    else
      st.(isComplete := true)
  }

  /** On a walkable scenario, advancing from a valid cursor moves exactly one
      step along the script, and sets the completion flag exactly when the
      cursor was on the script's last interaction. */
  lemma {:induction false} AdvanceWalksScript(sc: SimulationScenario, st: EngineState)
    requires Walkable(sc) && ValidCursor(sc, st)
    ensures ValidCursor(sc, Advance(sc, st))
    ensures Completed(sc, st) + 1 < TotalInteractions(sc) ==>
      && Completed(sc, Advance(sc, st)) == Completed(sc, st) + 1
      && Advance(sc, st).isComplete == st.isComplete
    ensures Completed(sc, st) + 1 == TotalInteractions(sc) <==> AtEnd(sc, st)
    ensures AtEnd(sc, st) ==> Advance(sc, st) == st.(isComplete := true)
  {
    var s, i, n := st.stageIndex, st.interactionIndex, |sc.stages|;
    CurrentIsScriptAt(sc, st);
    if i + 1 < |sc.stages[s].interactions| {
      if s + 1 < n {
        CountBeforeMonotone(sc.stages, s + 1, n);
      }
    } else if s + 1 < n {
      CountBeforeMonotone(sc.stages, s + 1, n);
      assert |sc.stages[s + 1].interactions| > 0;
    }
  }

  /** `handleOptionSelect`: record the answer to the current interaction,
      then advance. Without a current interaction it does nothing. */
  function SelectOption(sc: SimulationScenario, st: EngineState, opt: SimulationOption): (r: EngineState)
    ensures CurrentInteraction(sc, st).None? ==> r == st
    ensures CurrentInteraction(sc, st).Some? ==>
      && r.userChoices == st.userChoices + [UserChoice(CurrentInteraction(sc, st).value.id, opt.id, opt.value)]
      && r.(userChoices := st.userChoices) == Advance(sc, st)
  {
    match CurrentInteraction(sc, st)
    case None => st
    case Some(x) =>
      Advance(sc, st.(userChoices := st.userChoices + [UserChoice(x.id, opt.id, opt.value)]))
  }

  /** `handleNext`: advance, except on a choice, which only an option
      advances. */
  function Next(sc: SimulationScenario, st: EngineState): (r: EngineState)
    ensures r.userChoices == st.userChoices
    ensures OnChoice(sc, st) ==> r == st
  {
    if OnChoice(sc, st) then st else Advance(sc, st)
  }

  /** `handleCompleteSimulation`. */
  function CompleteSimulation(st: EngineState): (r: EngineState)
    ensures r.showResults
  {
    st.(showResults := true)
  }

  /** The "Restart Simulation" handler: every field back to its initial value. */
  function Restart(st: EngineState): (r: EngineState)
    ensures r.userChoices == [] && !r.isComplete && !r.showResults
  {
    Initial
  }

  // ---------------------------------------------------------------------
  // Score and tier

  function PointValue(v: Rating): nat {
    match v
    case Good => 3
    case Neutral => 1
    case Bad => 0
  }

  /** The `reduce` over the history: points summed from the left. */
  function Points(cs: seq<UserChoice>): nat {
    if |cs| == 0 then 0 else Points(cs[..|cs| - 1]) + PointValue(cs[|cs| - 1].value)
  }

  /** The number of choices rated v (`filter(c => c.value === v).length`). */
  function CountRated(cs: seq<UserChoice>, v: Rating): nat {
    if |cs| == 0 then 0 else CountRated(cs[..|cs| - 1], v) + (if cs[|cs| - 1].value == v then 1 else 0)
  }

  /** Some answer carries rating v exactly when the count of v is positive:
      the `filter(...).length > 0` tests of the feedback panels. */
  lemma {:induction false} RatedExists(cs: seq<UserChoice>, v: Rating)
    ensures CountRated(cs, v) > 0 <==> exists i :: 0 <= i < |cs| && cs[i].value == v
  {
    if |cs| > 0 {
      var init := cs[..|cs| - 1];
      RatedExists(init, v);
      if exists i :: 0 <= i < |cs| && cs[i].value == v {
        var i :| 0 <= i < |cs| && cs[i].value == v;
        if i < |cs| - 1 {
          assert init[i].value == v;
        }
      }
      if exists i :: 0 <= i < |init| && init[i].value == v {
        var i :| 0 <= i < |init| && init[i].value == v;
        assert cs[i].value == v;
      }
    }
  }

  lemma {:induction false} RatedCountsCover(cs: seq<UserChoice>)
    ensures CountRated(cs, Good) + CountRated(cs, Neutral) + CountRated(cs, Bad) == |cs|
  {
    if |cs| > 0 {
      RatedCountsCover(cs[..|cs| - 1]);
    }
  }

  /** Three points per good answer, one per neutral one, none per bad one. */
  lemma {:induction false} PointsByRating(cs: seq<UserChoice>)
    ensures Points(cs) == 3 * CountRated(cs, Good) + CountRated(cs, Neutral)
    ensures Points(cs) <= 3 * |cs|
  {
    RatedCountsCover(cs);
    if |cs| > 0 {
      PointsByRating(cs[..|cs| - 1]);
    }
  }

  /** `calculateScore`: the points as a percentage of the maximum (three per
      choice), rounded half up as `Math.round` does for non-negative
      values; 0 with no choices. */
  function Score(cs: seq<UserChoice>): (r: nat)
    ensures r <= 100
  {
    if |cs| == 0 then 0
    else
      PointsByRating(cs);
      DivAtMost(200 * Points(cs) + 3 * |cs|, 6 * |cs|, 100);
      Div(200 * Points(cs) + 3 * |cs|, 6 * |cs|)
  }

  /** The score is the nearest integer to 100 * points / (3 * |cs|), halves
      rounding up: r - 1/2 <= 100 p / (3 n) < r + 1/2. */
  lemma ScoreRounds(cs: seq<UserChoice>)
    requires |cs| > 0
    ensures 3 * |cs| * (2 * Score(cs) - 1) <= 200 * Points(cs) < 3 * |cs| * (2 * Score(cs) + 1)
  {
    var n, p, r := |cs|, Points(cs), Score(cs);
    DivBounds(200 * p + 3 * n, 6 * n);
    assert r * (6 * n) <= 200 * p + 3 * n < (r + 1) * (6 * n);
    assert 3 * n * (2 * r - 1) == r * (6 * n) - 3 * n;
    assert 3 * n * (2 * r + 1) == (r + 1) * (6 * n) - 3 * n;
  }

  /** All-good answers score 100; all-bad answers score 0. */
  lemma ScoreExtremes(cs: seq<UserChoice>)
    requires |cs| > 0
    ensures CountRated(cs, Good) == |cs| ==> Score(cs) == 100
    ensures CountRated(cs, Bad) == |cs| ==> Score(cs) == 0
  {
    PointsByRating(cs);
    RatedCountsCover(cs);
    var n := |cs|;
    if CountRated(cs, Good) == n {
      DivBetween(200 * Points(cs) + 3 * n, 6 * n, 100);
    }
    if CountRated(cs, Bad) == n {
      DivBetween(200 * Points(cs) + 3 * n, 6 * n, 0);
    }
  }

  /** Same number of answers and no fewer points: no lower score. In
      particular, turning a neutral or bad answer into a good one, all else
      equal, never lowers the score. */
  lemma ScoreMonotone(a: seq<UserChoice>, b: seq<UserChoice>)
    requires |a| == |b| && Points(a) <= Points(b)
    ensures Score(a) <= Score(b)
  {
    if |a| > 0 {
      var n := |a|;
      MonotoneDiv(200 * Points(a) + 3 * n, 200 * Points(b) + 3 * n, 6 * n);
    }
  }

  // Division facts, proved from the definition of / and %.

  /** Integer division of naturals, which is floor division. Score and
      Progress divide through this function, so their proofs see the
      quotient as one term and reach `/` only through the lemmas below. */
  function Div(x: nat, d: nat): nat
    requires d > 0
  {
    x / d
  }

  lemma MulMonotone(a: int, b: int, d: nat)
    requires a <= b
    ensures a * d <= b * d
  {
    assert b * d - a * d == (b - a) * d;
  }

  lemma DivBounds(x: nat, d: nat)
    requires d > 0
    ensures (x / d) * d <= x < (x / d + 1) * d
  {
    assert x == (x / d) * d + x % d;
    assert (x / d + 1) * d == (x / d) * d + d;
  }

  /** The quotient is the q with q * d <= x < (q + 1) * d. */
  lemma DivBetween(x: nat, d: nat, q: nat)
    requires d > 0 && q * d <= x < (q + 1) * d
    ensures x / d == q
  {
    var k := x / d;
    DivBounds(x, d);
    if k < q {
      MulMonotone(k + 1, q, d);
    } else if k > q {
      MulMonotone(q + 1, k, d);
    }
  }

  lemma DivAtMost(x: nat, d: nat, q: nat)
    requires d > 0 && x < (q + 1) * d
    ensures x / d <= q
  {
    DivBounds(x, d);
    if x / d > q {
      MulMonotone(q + 1, x / d, d);
    }
  }

  lemma MonotoneDiv(x: nat, y: nat, d: nat)
    requires x <= y && d > 0
    ensures x / d <= y / d
  {
    DivBounds(x, d);
    DivBounds(y, d);
    if y / d < x / d {
      MulMonotone(y / d + 1, x / d, d);
    }
  }

  datatype Tier = Developing | Proficient | Expert

  /** The performance tier of the results view. */
  function TierOf(score: int): (t: Tier)
    ensures t == Expert <==> score >= 80
    ensures t == Proficient <==> 60 <= score < 80
    ensures t == Developing <==> score < 60
  {
    if score >= 80 then Expert else if score >= 60 then Proficient else Developing
  }

  // ---------------------------------------------------------------------
  // Progress

  /** The progress bar: the completed interactions as a percentage of the
      total, rounded down. None stands for the source's division by zero
      (a scenario without interactions). */
  function Progress(sc: SimulationScenario, st: EngineState): (r: Option<nat>)
    requires st.stageIndex <= |sc.stages|
    ensures r.None? <==> TotalInteractions(sc) == 0
    ensures r.Some? ==>
      r.value * TotalInteractions(sc) <= 100 * Completed(sc, st) < (r.value + 1) * TotalInteractions(sc)
  {
    var total := TotalInteractions(sc);
    if total == 0 then None else Some(Div(100 * Completed(sc, st), total))
  }

  /** The effect's loop: the lengths of the earlier stages, then the index
      in the current one. */
  method CompletedInteractions(sc: SimulationScenario, st: EngineState) returns (completed: nat)
    requires st.stageIndex <= |sc.stages|
    ensures completed == Completed(sc, st)
  {
    completed := 0;
    var i := 0;
    while i < st.stageIndex
      invariant i <= st.stageIndex
      invariant completed == CountBefore(sc.stages, i)
    {
      completed := completed + |sc.stages[i].interactions|;
      i := i + 1;
    }
    completed := completed + st.interactionIndex;
  }

  /** The `reduce` over the stages: the number of interactions in all. */
  method CountInteractions(sc: SimulationScenario) returns (total: nat)
    ensures total == |Script(sc)|
  {
    total := 0;
    var i := 0;
    while i < |sc.stages|
      invariant i <= |sc.stages|
      invariant total == CountBefore(sc.stages, i)
    {
      total := total + |sc.stages[i].interactions|;
      i := i + 1;
    }
  }

  /** Under a valid cursor the bar never reads 100; advancing never moves
      it back. */
  lemma ProgressBounds(sc: SimulationScenario, st: EngineState)
    requires Walkable(sc) && ValidCursor(sc, st)
    ensures Progress(sc, st).Some? && Progress(sc, st).value < 100
    ensures Progress(sc, Advance(sc, st)).Some?
    ensures Progress(sc, st).value <= Progress(sc, Advance(sc, st)).value
  {
    CurrentIsScriptAt(sc, st);
    AdvanceWalksScript(sc, st);
    var total := TotalInteractions(sc);
    var a := Advance(sc, st);
    var c, c' := Completed(sc, st), Completed(sc, a);
    DivAtMost(100 * c, total, 99);
    if AtEnd(sc, st) {
      assert c' == c;
    } else {
      assert c' == c + 1;
      MonotoneDiv(100 * c, 100 * c', total);
    }
  }

  // ---------------------------------------------------------------------
  // What the page shows

  /** The primary button's label (`getButtonLabel`): "View Results" once
      complete, "Select an option" on an open choice, "Complete Simulation"
      on the last interaction of the script, "Continue" otherwise. */
  function ButtonLabel(sc: SimulationScenario, st: EngineState): (r: string)
    ensures r == "View Results" <==> st.isComplete
    ensures r == "Select an option" <==> !st.isComplete && OnChoice(sc, st)
    ensures r == "Complete Simulation" <==> !st.isComplete && !OnChoice(sc, st) && AtEnd(sc, st)
    ensures r == "Continue" <==> !st.isComplete && !OnChoice(sc, st) && !AtEnd(sc, st)
  {
    if st.isComplete then "View Results"
    else if OnChoice(sc, st) then "Select an option"
    else if st.stageIndex + 1 == |sc.stages|
         && st.interactionIndex + 1 == |sc.stages[st.stageIndex].interactions| then "Complete Simulation"
    else "Continue"
  }

  /** The primary button is disabled on a choice, completed or not: besides
      "Select an option", a "View Results" label over a final choice is
      disabled too. */
  predicate PressEnabled(sc: SimulationScenario, st: EngineState)
    ensures PressEnabled(sc, st) <==>
      ButtonLabel(sc, st) != "Select an option" && !(st.isComplete && OnChoice(sc, st))
  {
    !OnChoice(sc, st)
  }

  /** The option buttons of a choice are rendered whenever the current
      interaction is a choice; the form is hidden behind the results view. */
  predicate Offered(sc: SimulationScenario, st: EngineState, k: nat)
    ensures Offered(sc, st, k) ==> !PressEnabled(sc, st) && !st.showResults
  {
    && !st.showResults
    && OnChoice(sc, st)
    && CurrentInteraction(sc, st).value.options.Some?
    && k < |CurrentInteraction(sc, st).value.options.value|
  }

  /** The interaction card shows a feedback beat: the results view, which
      replaces the card, is not open. */
  predicate OnFeedback(sc: SimulationScenario, st: EngineState) {
    !st.showResults && CurrentInteraction(sc, st).Some? && CurrentInteraction(sc, st).value.kind == Feedback
  }

  /** The two panels of a feedback beat: strengths when some answer was
      good, areas for improvement when some answer was bad. */
  datatype FeedbackPanels = FeedbackPanels(strengths: bool, improvements: bool)

  function Panels(sc: SimulationScenario, st: EngineState): (r: FeedbackPanels)
    ensures r.strengths <==> OnFeedback(sc, st) && exists i :: 0 <= i < |st.userChoices| && st.userChoices[i].value == Good
    ensures r.improvements <==> OnFeedback(sc, st) && exists i :: 0 <= i < |st.userChoices| && st.userChoices[i].value == Bad
    ensures (r.strengths || r.improvements) ==> !st.showResults && |st.userChoices| > 0
  {
    if OnFeedback(sc, st) then
      RatedExists(st.userChoices, Good);
      RatedExists(st.userChoices, Bad);
      FeedbackPanels(CountRated(st.userChoices, Good) > 0, CountRated(st.userChoices, Bad) > 0)
    else
      FeedbackPanels(false, false)
  }

  /** On a feedback beat, what the panels show pins the score down: no
      strengths panel means at most 33, no improvements panel at least 33,
      and neither (with some answers) exactly 33. */
  lemma PanelsBoundScore(sc: SimulationScenario, st: EngineState)
    requires OnFeedback(sc, st)
    requires |st.userChoices| > 0
    ensures !Panels(sc, st).strengths ==> Score(st.userChoices) <= 33
    ensures !Panels(sc, st).improvements ==> Score(st.userChoices) >= 33
  {
    var cs := st.userChoices;
    var n := |cs|;
    PointsByRating(cs);
    RatedCountsCover(cs);
    if !Panels(sc, st).strengths {
      MonotoneDiv(200 * Points(cs) + 3 * n, 203 * n, 6 * n);
      DivBetween(203 * n, 6 * n, 33);
    }
    if !Panels(sc, st).improvements {
      MonotoneDiv(203 * n, 200 * Points(cs) + 3 * n, 6 * n);
      DivBetween(203 * n, 6 * n, 33);
    }
  }

  /** The results view: score, tier, up to three strengths and up to three
      areas for improvement (`slice(0, 3)` of the good and bad answers),
      and the outcome of the stage the cursor rests on. A list with no rated
      entry shows a single placeholder line instead. */
  datatype Results = Results(score: nat, tier: Tier, strengths: nat, improvements: nat, outcome: Option<string>)

  function ResultsView(sc: SimulationScenario, st: EngineState): (r: Results)
    requires st.stageIndex < |sc.stages|
    ensures r.score == Score(st.userChoices) && r.tier == TierOf(r.score)
    ensures r.strengths == Min(3, CountRated(st.userChoices, Good))
    ensures r.improvements == Min(3, CountRated(st.userChoices, Bad))
  {
    var score := Score(st.userChoices);
    Results(score, TierOf(score), Min(3, CountRated(st.userChoices, Good)),
            Min(3, CountRated(st.userChoices, Bad)), sc.stages[st.stageIndex].outcome)
  }

  function Min(a: nat, b: nat): nat {
    if a <= b then a else b
  }

  /** Once the results are shown, the outcome panel shows the outcome of
      the final stage, which a well-formed scenario always has; the cursor
      of an earlier stage would show none. */
  lemma ResultsOutcome(sc: SimulationScenario, st: EngineState)
    requires WellFormed(sc) && Coherent(sc, st)
    ensures st.showResults ==>
      ResultsView(sc, st).outcome == sc.stages[|sc.stages| - 1].outcome && ResultsView(sc, st).outcome.Some?
    ensures st.stageIndex + 1 < |sc.stages| ==> ResultsView(sc, st).outcome.None?
  {
  }

  // ---------------------------------------------------------------------
  // User actions

  /** What a user can do on the page: pick the k-th option, press the
      primary button, or press "Restart Simulation" on the results view. */
  datatype Action = Pick(k: nat) | Press | RestartSimulation

  /** No action of acts is `RestartSimulation`. */
  predicate NoRestart(acts: seq<Action>) {
    |acts| == 0 || (!acts[0].RestartSimulation? && NoRestart(acts[1..]))
  }

  /** One action, as the page wires it. The primary button calls
      `handleCompleteSimulation` once the run is complete and `handleNext`
      before; it is disabled on a choice. */
  function Apply(sc: SimulationScenario, st: EngineState, a: Action): (r: EngineState)
    ensures st.showResults ==> r == (if a.RestartSimulation? then Initial else st)
    ensures !st.showResults && a.RestartSimulation? ==> r == st
    ensures st.isComplete && OnChoice(sc, st) && a.Press? ==> r == st
  {
    match a
    case Pick(k) =>
      if Offered(sc, st, k) then SelectOption(sc, st, CurrentInteraction(sc, st).value.options.value[k]) else st
    case Press =>
      if st.showResults || !PressEnabled(sc, st) then st
      else if st.isComplete then CompleteSimulation(st)
      else Next(sc, st)
    case RestartSimulation =>
      if st.showResults then Restart(st) else st
  }

  function Run(sc: SimulationScenario, st: EngineState, acts: seq<Action>): EngineState
    decreases |acts|
  {
    if |acts| == 0 then st else Run(sc, Apply(sc, st, acts[0]), acts[1..])
  }

  /** The state invariant the page maintains: the cursor addresses an
      interaction, completion only happens at the end of the script, and
      results only after completion. */
  predicate Coherent(sc: SimulationScenario, st: EngineState) {
    && ValidCursor(sc, st)
    && (st.isComplete ==> AtEnd(sc, st))
    && (st.showResults ==> st.isComplete)
  }

  /** A restart gives back the state the component mounts with: coherent,
      at the start of the script, with no answers, a zero score and an
      empty progress bar. */
  lemma RestartStartsOver(sc: SimulationScenario, st: EngineState)
    requires Walkable(sc)
    ensures Restart(st) == Initial && Coherent(sc, Restart(st))
    ensures Completed(sc, Restart(st)) == 0
    ensures Progress(sc, Restart(st)) == Some(0) && Score(Restart(st).userChoices) == 0
  {
    assert |sc.stages[0].interactions| > 0;
    CountBeforeMonotone(sc.stages, 0, |sc.stages|);
  }

  /** Every action keeps the state coherent, and the history only grows,
      by at most one answer, except when a restart clears it. */
  lemma ApplyKeepsCoherent(sc: SimulationScenario, st: EngineState, a: Action)
    requires Walkable(sc) && Coherent(sc, st)
    ensures Coherent(sc, Apply(sc, st, a))
    ensures !a.RestartSimulation? ==> st.userChoices <= Apply(sc, st, a).userChoices
    ensures |Apply(sc, st, a).userChoices| <= |st.userChoices| + 1
  {
    if !st.isComplete {
      AdvanceWalksScript(sc, st);
      AdvanceWalksScript(sc, st.(userChoices := []));
    }
  }

  lemma {:induction false} RunKeepsCoherent(sc: SimulationScenario, st: EngineState, acts: seq<Action>)
    requires Walkable(sc) && Coherent(sc, st)
    ensures Coherent(sc, Run(sc, st, acts))
    decreases |acts|
  {
    if |acts| > 0 {
      ApplyKeepsCoherent(sc, st, acts[0]);
      RunKeepsCoherent(sc, Apply(sc, st, acts[0]), acts[1..]);
    }
  }

  /** The button label tells what pressing does. On a coherent state before
      the results view: "Select an option" does nothing, "Continue" moves
      one step along the script, "Complete Simulation" completes the run
      where it stands, and "View Results" opens the results unless the run
      completed on a choice, where the button stays disabled. */
  lemma LabelPredictsPress(sc: SimulationScenario, st: EngineState)
    requires Walkable(sc) && Coherent(sc, st) && !st.showResults
    ensures ButtonLabel(sc, st) == "Select an option" ==> Apply(sc, st, Press) == st
    ensures ButtonLabel(sc, st) == "Continue" ==>
      && Completed(sc, Apply(sc, st, Press)) == Completed(sc, st) + 1
      && !Apply(sc, st, Press).isComplete
    ensures ButtonLabel(sc, st) == "Complete Simulation" ==> Apply(sc, st, Press) == st.(isComplete := true)
    ensures ButtonLabel(sc, st) == "View Results" ==>
      (Apply(sc, st, Press).showResults <==> !OnChoice(sc, st))
  {
    if !st.isComplete {
      AdvanceWalksScript(sc, st);
    }
  }

  // ---------------------------------------------------------------------
  // The primary button as evidently intended

  /** Once the run is complete the button reads "View Results"; as intended
      it is then enabled even if the cursor rests on a choice. */
  predicate PressEnabledFixed(sc: SimulationScenario, st: EngineState) {
    st.isComplete || !OnChoice(sc, st)
  }

  /** As intended, a completed run offers no options. */
  predicate OfferedFixed(sc: SimulationScenario, st: EngineState, k: nat) {
    Offered(sc, st, k) && !st.isComplete
  }

  function ApplyFixed(sc: SimulationScenario, st: EngineState, a: Action): EngineState
  {
    match a
    case Pick(k) =>
      if OfferedFixed(sc, st, k) then SelectOption(sc, st, CurrentInteraction(sc, st).value.options.value[k]) else st
    case Press =>
      if st.showResults || !PressEnabledFixed(sc, st) then st
      else if st.isComplete then CompleteSimulation(st)
      else Next(sc, st)
    case RestartSimulation =>
      if st.showResults then Restart(st) else st
  }

  function RunFixed(sc: SimulationScenario, st: EngineState, acts: seq<Action>): EngineState
    decreases |acts|
  {
    if |acts| == 0 then st else RunFixed(sc, ApplyFixed(sc, st, acts[0]), acts[1..])
  }

  /** As intended, a completed run opens the results on the next press
      whatever the cursor rests on, and ignores every other action; the
      results view only leaves on "Restart Simulation". */
  lemma FixedPressCompletes(sc: SimulationScenario, st: EngineState, a: Action)
    ensures st.showResults ==> ApplyFixed(sc, st, a) == (if a.RestartSimulation? then Initial else st)
    ensures st.isComplete && !st.showResults ==>
      ApplyFixed(sc, st, a) == (if a.Press? then st.(showResults := true) else st)
  {
  }

  /** As written, the results view stays until the user restarts. */
  lemma {:induction false} ResultsHold(sc: SimulationScenario, st: EngineState, acts: seq<Action>)
    requires st.showResults && NoRestart(acts)
    ensures Run(sc, st, acts) == st
    decreases |acts|
  {
    if |acts| > 0 {
      assert Apply(sc, st, acts[0]) == st;
      ResultsHold(sc, st, acts[1..]);
    }
  }

  /** As intended, too, the results view stays until the user restarts. */
  lemma {:induction false} ResultsHoldFixed(sc: SimulationScenario, st: EngineState, acts: seq<Action>)
    requires st.showResults && NoRestart(acts)
    ensures RunFixed(sc, st, acts) == st
    decreases |acts|
  {
    if |acts| > 0 {
      FixedPressCompletes(sc, st, acts[0]);
      ResultsHoldFixed(sc, st, acts[1..]);
    }
  }

  lemma {:induction false} RunFixedKeepsCoherent(sc: SimulationScenario, st: EngineState, acts: seq<Action>)
    requires Walkable(sc) && Coherent(sc, st)
    ensures Coherent(sc, RunFixed(sc, st, acts))
    decreases |acts|
  {
    if |acts| > 0 {
      ApplyFixedKeepsCoherent(sc, st, acts[0]);
      RunFixedKeepsCoherent(sc, ApplyFixed(sc, st, acts[0]), acts[1..]);
    }
  }

  /** The two wirings differ only on a run completed on a choice. */
  lemma ApplyAgrees(sc: SimulationScenario, st: EngineState, a: Action)
    requires !(st.isComplete && OnChoice(sc, st))
    ensures Apply(sc, st, a) == ApplyFixed(sc, st, a)
  {
  }

  lemma ApplyFixedKeepsCoherent(sc: SimulationScenario, st: EngineState, a: Action)
    requires Walkable(sc) && Coherent(sc, st)
    ensures Coherent(sc, ApplyFixed(sc, st, a))
    ensures !a.RestartSimulation? ==> st.userChoices <= ApplyFixed(sc, st, a).userChoices
  {
    if !st.isComplete {
      AdvanceWalksScript(sc, st);
      AdvanceWalksScript(sc, st.(userChoices := []));
    }
  }

  /** On a scenario whose script does not end on a choice the two wirings
      give the same run from every coherent state. */
  lemma {:induction false} RunAgrees(sc: SimulationScenario, st: EngineState, acts: seq<Action>)
    requires Walkable(sc) && !EndsOnChoice(sc) && Coherent(sc, st)
    ensures Run(sc, st, acts) == RunFixed(sc, st, acts)
    decreases |acts|
  {
    if |acts| > 0 {
      ApplyAgrees(sc, st, acts[0]);
      ApplyKeepsCoherent(sc, st, acts[0]);
      RunAgrees(sc, Apply(sc, st, acts[0]), acts[1..]);
    }
  }

  /** As written, a run completed on a final choice is stuck: no sequence of
      actions opens the results, the cursor stays, and the history only
      grows. */
  lemma {:induction false} StuckAfterFinalChoice(sc: SimulationScenario, st: EngineState, acts: seq<Action>)
    requires Walkable(sc) && EndsOnChoice(sc) && Coherent(sc, st)
    requires st.isComplete && !st.showResults
    ensures var r := Run(sc, st, acts);
      && !r.showResults && r.isComplete
      && r.stageIndex == st.stageIndex && r.interactionIndex == st.interactionIndex
      && st.userChoices <= r.userChoices
    decreases |acts|
  {
    if |acts| > 0 {
      var a := Apply(sc, st, acts[0]);
      assert OnChoice(sc, st);
      ApplyKeepsCoherent(sc, st, acts[0]);
      StuckAfterFinalChoice(sc, a, acts[1..]);
    }
  }

  /** The actions end with exactly one press, made as soon as the run is
      complete under the intended wiring. */
  predicate EndsWithFinalPress(sc: SimulationScenario, st: EngineState, acts: seq<Action>)
    decreases |acts|
  {
    |acts| > 0 &&
    if st.isComplete then acts == [Press]
    else EndsWithFinalPress(sc, ApplyFixed(sc, st, acts[0]), acts[1..])
  }

  /** On a scenario whose script ends on a choice, a run that presses once
      after completing opens the results as intended; as written it ends
      in the same state with the results view shut. */
  lemma {:induction false} FinalPressStuck(sc: SimulationScenario, st: EngineState, acts: seq<Action>)
    requires Walkable(sc) && EndsOnChoice(sc) && Coherent(sc, st) && !st.showResults
    requires EndsWithFinalPress(sc, st, acts)
    ensures RunFixed(sc, st, acts).showResults
    ensures Run(sc, st, acts) == RunFixed(sc, st, acts).(showResults := false)
    decreases |acts|
  {
    if st.isComplete {
      assert OnChoice(sc, st);
      assert acts[1..] == [];
    } else {
      ApplyAgrees(sc, st, acts[0]);
      ApplyFixedKeepsCoherent(sc, st, acts[0]);
      FinalPressStuck(sc, ApplyFixed(sc, st, acts[0]), acts[1..]);
    }
  }

  /** As written, a scenario whose script ends on a choice never reaches
      its results: from any coherent state not already showing them, no
      sequence of actions opens the results view. */
  lemma {:induction false} NeverShowsResults(sc: SimulationScenario, st: EngineState, acts: seq<Action>)
    requires Walkable(sc) && EndsOnChoice(sc) && Coherent(sc, st) && !st.showResults
    ensures !Run(sc, st, acts).showResults
    decreases |acts|
  {
    if |acts| > 0 {
      if st.isComplete {
        assert OnChoice(sc, st);
      }
      ApplyKeepsCoherent(sc, st, acts[0]);
      NeverShowsResults(sc, Apply(sc, st, acts[0]), acts[1..]);
    }
  }

  /** As written, every click on an option of the final choice after
      completion records one more answer. */
  lemma StuckPickRecords(sc: SimulationScenario, st: EngineState, k: nat)
    requires Walkable(sc) && AtEnd(sc, st) && st.isComplete && Offered(sc, st, k)
    ensures var x := CurrentInteraction(sc, st).value;
      Apply(sc, st, Pick(k)) ==
        st.(userChoices := st.userChoices + [UserChoice(x.id, x.options.value[k].id, x.options.value[k].value)])
  {
    AdvanceWalksScript(sc, st);
  }

  /** As intended, a completed run opens its results with one press. */
  lemma FixedPressShowsResults(sc: SimulationScenario, st: EngineState)
    requires st.isComplete && !st.showResults
    ensures ApplyFixed(sc, st, Press) == st.(showResults := true)
  {
  }
}

=== FILE: wrappers.dfy ===
/** The optional value used wherever the source has an optional field, a
    `find` that may miss, or an `undefined` lookup, and the one sequence
    fact the proofs share. */
module Wrappers {

  datatype Option<+T> = None | Some(value: T)

  /** Concatenation regroups freely; stated once so that proofs can call it
      instead of re-deriving it element by element. */
  lemma AppendAssociates<T>(a: seq<T>, b: seq<T>, c: seq<T>)
    ensures a + (b + c) == (a + b) + c
  {
  }
}
